=== FILE: README.md ===
# idea-architect-ai backend core, modelled in Dafny

This project models the Python backend of idea-architect-ai, a service that turns a startup idea
into a multi-part business analysis. The model covers:

- **The analysis pipeline** (`langgraph_workflow.py`, duplicated in `main.py`). Nine LLM-backed
  nodes run as a fixed chain over a state record:
  - market analyst, cost predictor, business strategist, monetization expert, legal advisor and
    tech architect;
  - then the strategist's synthesis, the critic's review and the final refinement.
  Each node writes exactly one field and reads only fields written before it. The run is
  projected to seven result fields; the refined strategy is reported as the strategist critique.
  `get_llm` is modelled with its key check, and `run_analysis` and the FastAPI `analyze_startup`
  with their error mapping.
- **The `/analyze` view** (`views.py`). It covers validation failure, the orchestrator defaults,
  the project-id echo and the mapping of a run's exception to a 500.
- **The Groq credential pool** (`api_key_manager.py`). It covers:
  - the agent-to-slot table and the three slots with the `GROQ_API_KEY` fallback of slot 1;
  - the agent key lookup with its fallback and its error;
  - the exclusion-based fallback key;
  - the status summary with masked keys.
- **The knowledge base** (`rag_system.py`):
  - the never-raising query formatter with its sentinels, numbered labels and separator;
  - per-agent routing to collections;
  - the suffix dispatch and tagging of the directory scan;
  - agent loading, initialisation, refresh and status.
- **The `load_knowledge` command**: flag precedence, the full-load report and its total, the
  single-agent report and the status lines.
- **Authentication** (`jwt_utils.py`, `auth_views.py`). It covers bearer-header parsing, token
  claims, and registration and login over the users collection with email normalisation, plus
  the current-user lookup.
- **Projects** (`project_views.py`). The owner-scoped project store covers:
  - serialisation;
  - listing newest first;
  - creation;
  - ObjectId parsing;
  - 400/404 lookup, allowlisted update and deletion.

External services are parameters:

- the language model: a `Generator` from node and context text to a response or an error;
- the vector store: a `Searcher`;
- the document loaders: a `Reader` from loader family, directory name and file name to what
  loading that file gives;
- chunker, indexer and counter: a `Backend`;
- bcrypt: `hash`/`checkPassword`;
- `jose`: `Encoder`/`Verifier`;
- the clock: successive reads `nat -> int`;
- the ids MongoDB assigns: an argument.

Collections are a sequence of documents in insertion order (users) or a map keyed by ObjectId
(projects). Python's `None` and `""` are both falsy and are modelled as `""` wherever the code
only tests truthiness.

Every stage of the pipeline runs unconditionally. The critic's only bound on what it reads is
a plain 1000-character slice followed by a literal `...`. The pipeline takes its model from
`get_llm` and does not consult the Groq credential pool, so the pool is modelled on its own.

## Model

| member | source | states |
|---|---|---|
| Basics.SkipSpace | python-backend/analyzer/project_views.py:66 | the scan stops at the first non-whitespace character (Python `isspace`) and skips only whitespace |
| Basics.SkipSpaceBack | python-backend/analyzer/project_views.py:66 | the backward scan stops after the last non-whitespace character and skips only whitespace |
| Basics.Strip | python-backend/analyzer/project_views.py:66-67 | `str.strip()` never lengthens and leaves no whitespace at either end |
| Basics.StripRemovesOnlySpace | python-backend/analyzer/project_views.py:66-67 | the stripped text is an infix of the input and everything cut off is whitespace |
| Basics.StripEmptyIffAllSpace | python-backend/analyzer/project_views.py:69 | a stripped value is empty (falsy) exactly when the input was all whitespace |
| Basics.StripKeepsTrimmed | python-backend/analyzer/auth_views.py:20 | text without whitespace at its ends is left unchanged by strip |
| Basics.StripIdempotent | python-backend/analyzer/project_views.py:66 | stripping twice equals stripping once |
| Basics.LowerChar | python-backend/analyzer/auth_views.py:20 | an upper-case ASCII letter becomes its lower-case partner; every other character is unchanged |
| Basics.Lower | python-backend/analyzer/auth_views.py:20 | ASCII lower-casing applied character by character; the length is kept |
| Basics.LowerIdempotent | python-backend/analyzer/auth_views.py:20 | lower-casing twice equals lower-casing once |
| Basics.StartsWithAppend | python-backend/analyzer/jwt_utils.py:41 | a prefix of a string remains a prefix after appending |
| Basics.Take | python-backend/analyzer/langgraph_workflow.py:346-347 | `s[:n]` is a prefix of `s` of length min(n, len s) |
| Basics.TakeLast | python-backend/analyzer/api_key_manager.py:107 | `s[-n:]` is a suffix of `s` of length min(n, len s) |
| Basics.JoinSplit | python-backend/analyzer/rag_system.py:232 | a join splits at any part boundary into the two joins around one separator |
| Basics.JoinAround | python-backend/analyzer/rag_system.py:232 | each part of a join sits between separators at its own place |
| Basics.ConcatSplit | python-backend/analyzer/langgraph_workflow.py:304-325 | a text built from parts is the text of the first parts followed by the text of the rest, at any cut |
| Basics.ConcatThree | python-backend/analyzer/langgraph_workflow.py:367-373 | three parts laid end to end form their concatenation |
| Basics.ConcatFour | python-backend/analyzer/langgraph_workflow.py:339-343 | four parts laid end to end form their concatenation |
| Basics.AppendEnds | python-backend/analyzer/langgraph_workflow.py:219-224 | a text joined from two pieces starts with the first and ends with the second |
| Basics.ConcatAppend | python-backend/analyzer/langgraph_workflow.py:304-325 | the text of two part lists laid end to end is the text of the first followed by that of the second |
| Basics.DigitChar | python-backend/analyzer/rag_system.py:230 | a digit value renders as the matching decimal digit |
| Basics.NatToString | python-backend/analyzer/rag_system.py:230 | an integer renders as decimal digits without a leading zero |
| Basics.ParseRendersBack | python-backend/analyzer/rag_system.py:228-230 | reading the rendered number back gives the number, so numbering is unambiguous |
| Basics.NatToStringInjective | python-backend/analyzer/rag_system.py:228-230 | different numbers render differently |
| Credentials.LookupFrom | python-backend/analyzer/api_key_manager.py:68 | the table lookup finds the agent's entry, and reports absence exactly when no entry names the agent |
| Credentials.MappingNamesDistinct | python-backend/analyzer/api_key_manager.py:16-32 | no agent appears twice in `AGENT_KEY_MAPPING` |
| Credentials.LookupFindsTheEntry | python-backend/analyzer/api_key_manager.py:16-32 | the lookup returns the slot of the agent's unique entry |
| Credentials.DesignatedSlot | python-backend/analyzer/api_key_manager.py:68 | an agent's slot comes from the table; an unknown agent gets `key_1` |
| Credentials.ConfiguredKeys | python-backend/analyzer/api_key_manager.py:35-41 | slot 1 reads `GROQ_API_KEY_1`, falling back to `GROQ_API_KEY`; slots 2 and 3 have no fallback |
| Credentials.GenericKeyOnlyFeedsSlotOne | python-backend/analyzer/api_key_manager.py:38-40 | changing `GROQ_API_KEY` never changes slots 2 and 3 |
| Credentials.AvailableKeys | python-backend/analyzer/api_key_manager.py:44-47 | available keys are exactly the non-empty slot values; the list is empty iff no slot is set |
| Credentials.PassOverHead | python-backend/analyzer/api_key_manager.py:77-80 | a slot that is first to qualify after a non-qualifying head is first to qualify in the whole scan |
| Credentials.FirstConfigured | python-backend/analyzer/api_key_manager.py:77-80 | returns a set slot with every slot before it empty, or none iff every slot is empty |
| Credentials.AvailableKeysInSlotOrder | python-backend/analyzer/api_key_manager.py:44-47 | one available key per configured slot, the first being the key of the first configured slot |
| Credentials.KeyForAgent | python-backend/analyzer/api_key_manager.py:50-85 | raises iff all slots are empty; otherwise returns a non-empty key, the designated slot's key when it is set |
| Credentials.KeyForAgentUsesAvailableKeys | python-backend/analyzer/api_key_manager.py:72-80 | the key served is always available; with an empty designated slot it is the first available key |
| Credentials.FirstEligible | python-backend/analyzer/api_key_manager.py:136-138 | returns a set, non-excluded slot with no such slot before it, or none iff there is none |
| Credentials.FallbackKey | python-backend/analyzer/api_key_manager.py:124-140 | None iff no slot other than the excluded one is set; otherwise the key of the first such slot in key_1, key_2, key_3 order |
| Credentials.FallbackKeyScansInOrder | python-backend/analyzer/api_key_manager.py:136-140 | the fallback equals the slot-by-slot scan: key_1 if set and not excluded, else key_2, else key_3, else none |
| Credentials.FallbackNeverReselects | python-backend/analyzer/api_key_manager.py:137 | when only the excluded slot is configured there is no fallback |
| Credentials.MaskKey | python-backend/analyzer/api_key_manager.py:107 | the mask is the first 8 characters, `...`, then the last 4 |
| Credentials.AssignedAgents | python-backend/analyzer/api_key_manager.py:100-103 | lists exactly the agents the table assigns to the slot |
| Credentials.SlotStatusOf | python-backend/analyzer/api_key_manager.py:100-109 | configured iff set; the masked key is present iff set and is the mask of the key; the assigned agents are the table's agents for the slot |
| Credentials.SlotEntries | python-backend/analyzer/api_key_manager.py:98-109 | one status entry per slot, in slot order |
| Credentials.GetKeyStatus | python-backend/analyzer/api_key_manager.py:88-121 | total is 3; configured counts the set slots; fallback is active iff some slot is unset |
| Credentials.AssignedAgentsPartition | python-backend/analyzer/api_key_manager.py:100-103 | a mapped agent is listed under a slot iff it is that agent's designated slot |
| Retrieval.FormatHits | python-backend/analyzer/rag_system.py:227-230 | one formatted part per hit |
| Retrieval.FirstCharacterDecides | python-backend/analyzer/rag_system.py:224-238 | texts with different first characters cannot share a prefix |
| Retrieval.ErrorAnswerShape | python-backend/analyzer/rag_system.py:236-238 | the error answer starts with its prefix and can be confused with neither other answer |
| Retrieval.NoResultsShape | python-backend/analyzer/rag_system.py:223-224 | the no-results sentinel is neither an error answer nor a labelled answer |
| Retrieval.HitsAnswerShape | python-backend/analyzer/rag_system.py:227-234 | a non-empty result starts with `[Source ` and is neither sentinel |
| Retrieval.QueryKnowledgeBase | python-backend/analyzer/rag_system.py:205-238 | never raises; when the search raised, the answer is the error prefix followed by the exception's message, and the prefix appears iff it raised; the sentinel iff no hits; labelled parts iff hits |
| Retrieval.EveryHitIsLabelled | python-backend/analyzer/rag_system.py:227-232 | the i-th hit appears as `[Source i+1: file]\n content` between separators |
| Retrieval.LabelsAreDistinct | python-backend/analyzer/rag_system.py:228-230 | two hits never carry the same label |
| Retrieval.ParseAgentType | python-backend/analyzer/rag_system.py:303-310 | accepts exactly the three agent-type names |
| Retrieval.CollectionsDistinct | python-backend/analyzer/rag_system.py:32-34 | each agent has its own collection |
| Retrieval.QueryAgentKnowledge | python-backend/analyzer/rag_system.py:244-284 | the answer depends only on what the search returns for the agent's own collection |
| Retrieval.QueryLegalKnowledge | python-backend/analyzer/rag_system.py:256 | legal queries go to `legal_knowledge` with the same query and k |
| Retrieval.QueryMarketKnowledge | python-backend/analyzer/rag_system.py:270 | market queries go to `market_knowledge` with the same query and k |
| Retrieval.QueryCostKnowledge | python-backend/analyzer/rag_system.py:284 | cost queries go to `costs_knowledge` with the same query and k |
| Knowledge.LastDot | python-backend/analyzer/rag_system.py:106 | finds the position of the last dot, or none iff the name has no dot |
| Knowledge.Suffix | python-backend/analyzer/rag_system.py:106 | `Path.suffix`: from the last dot to the end, empty for dot-files and names without a dot |
| Knowledge.LoaderFor | python-backend/analyzer/rag_system.py:108-134 | exactly the seven suffixes select a loader (.txt/.md share one, .docx/.doc share one); any other is skipped |
| Knowledge.DispatchIgnoresCase | python-backend/analyzer/rag_system.py:106 | a name and its lower-cased form are dispatched alike |
| Knowledge.LowerLastDot | python-backend/analyzer/rag_system.py:106 | lower-casing does not move the last dot |
| Knowledge.Tag | python-backend/analyzer/rag_system.py:137-139 | every document gets `source_file` = file name and `source_dir` = directory name; the rest is kept |
| Knowledge.CollectConcat | python-backend/analyzer/rag_system.py:103-146 | scanning two runs of entries concatenates their documents |
| Knowledge.LoadEntriesConcat | python-backend/analyzer/rag_system.py:103-146 | the directory scan distributes over the listing in order |
| Knowledge.SkippedEntryIsolated | python-backend/analyzer/rag_system.py:132-146 | a skipped or failing entry leaves the other entries' documents unchanged |
| Knowledge.FailingFileContributesNothing | python-backend/analyzer/rag_system.py:144-146 | a file whose loader raises contributes no documents |
| Knowledge.EveryDocumentTagged | python-backend/analyzer/rag_system.py:103-141 | every loaded document comes from a supported file and carries its tags |
| Knowledge.LoadEntry | python-backend/analyzer/rag_system.py:104-146 | a sub-directory, an unsupported suffix or a raising loader adds nothing; a loaded file adds its documents tagged with its name and the directory's name |
| Knowledge.LoadDocumentsFromDirectory | python-backend/analyzer/rag_system.py:83-148 | a missing directory yields nothing; otherwise the entries' contributions in listing order |
| Knowledge.LoadAgentKnowledge | python-backend/analyzer/rag_system.py:291-327 | an unknown type raises; no documents gives 0; a successful load of a non-empty directory returns exactly the number of chunks it indexed into the agent's collection; chunker or indexer failure propagates |
| Knowledge.InitializeKnowledgeBase | python-backend/analyzer/rag_system.py:330-349 | exactly legal, market and costs in order, each its own count, with a failure recorded as 0 |
| Knowledge.InitializeIsolatesAgents | python-backend/analyzer/rag_system.py:340-347 | one agent's entry depends only on that agent's directory and the shared loaders |
| Knowledge.RefreshKnowledgeBase | python-backend/analyzer/rag_system.py:352-366 | with an agent, a single entry whose failure propagates; without one, the full initialisation |
| Knowledge.KnowledgeBaseStatus | python-backend/analyzer/rag_system.py:369-401 | one entry per agent; a counter failure gives 0 chunks with the error; a missing collection gives 0 |
| LoadKnowledgeCommand.Handle | python-backend/analyzer/management/commands/load_knowledge.py:52-65 | `--locations` beats `--status`, which beats `--all`/`--refresh`, then `--agent`; with none, warning then status |
| LoadKnowledgeCommand.PrecedenceIsStable | python-backend/analyzer/management/commands/load_knowledge.py:53-58 | lower-precedence flags never change the action a higher one chose |
| LoadKnowledgeCommand.ReportLoadAll | python-backend/analyzer/management/commands/load_knowledge.py:75-85 | one line per agent, loaded iff its count is positive, and the total is the sum |
| LoadKnowledgeCommand.SumOfThree | python-backend/analyzer/management/commands/load_knowledge.py:85 | the total of three results is the sum of their counts |
| LoadKnowledgeCommand.LoadAllTotal | python-backend/analyzer/management/commands/load_knowledge.py:73-89 | the reported total is the sum of the three agents' own counts, a failure counting 0 |
| LoadKnowledgeCommand.LoadAgentReport | python-backend/analyzer/management/commands/load_knowledge.py:95-118 | failure becomes a command error naming the agent; positive counts are loaded; zero points to the upload path |
| LoadKnowledgeCommand.ClassifyStatus | python-backend/analyzer/management/commands/load_knowledge.py:128-144 | error iff a non-empty error is present; else loaded iff chunks > 0; else no data |
| LoadKnowledgeCommand.StatusReport | python-backend/analyzer/management/commands/load_knowledge.py:126-144 | one classified line per agent, in order |
| LoadKnowledgeCommand.StatusLineMeaning | python-backend/analyzer/management/commands/load_knowledge.py:133-139 | a line is an error iff counting raised with a message, and loaded iff the count succeeded and is positive |
| Pipeline.StateExtensionality | python-backend/analyzer/langgraph_workflow.py:201-212 | the state is determined by its two inputs and nine outputs |
| Pipeline.AnalysisState.Set | python-backend/analyzer/langgraph_workflow.py:227-236 | a node's returned update changes its own key and leaves every other key and both inputs alone |
| Pipeline.InitialState | python-backend/analyzer/langgraph_workflow.py:442-454 | the inputs are kept as given and all nine outputs are empty |
| Pipeline.WritesInjective | python-backend/analyzer/langgraph_workflow.py:227-381 | no two nodes return the same key |
| Pipeline.WriterIndex | python-backend/analyzer/langgraph_workflow.py:405-424 | every output field has a writer in the stage order |
| Pipeline.ReadsOnlyEarlier | python-backend/analyzer/langgraph_workflow.py:304-325 | a field a node reads is written by a node that runs before it |
| Pipeline.OrderWritesEachFieldOnce | python-backend/analyzer/langgraph_workflow.py:405-424 | the nine nodes of a run write nine different fields |
| Pipeline.UserContext | python-backend/analyzer/langgraph_workflow.py:219-224 | the context opens with the idea line; with a non-empty target market it ends with that market's line, otherwise it is the idea line alone |
| Pipeline.SynthesisText | python-backend/analyzer/langgraph_workflow.py:304-325 | the synthesis context opens with the idea and closes with the technical architecture analysis |
| Pipeline.SynthesisShape | python-backend/analyzer/langgraph_workflow.py:304-325 | for any pieces, the synthesis parts laid end to end are the opening pieces followed by each heading with its output, in order |
| Pipeline.SynthesisTextLayout | python-backend/analyzer/langgraph_workflow.py:304-325 | the whole synthesis context: the idea, the target market line (empty without a market), then the market, cost, strategy, monetization, legal and tech outputs each under its own heading, and a closing line break |
| Pipeline.CriticText | python-backend/analyzer/langgraph_workflow.py:339-348 | the critic context opens with the idea and the full strategic plan, and closes with the market label, at most 1000 characters of the market analysis, the cost label, at most 1000 characters of the cost prediction, and `...` |
| Pipeline.CriticShape | python-backend/analyzer/langgraph_workflow.py:339-348 | for any pieces, the critic parts laid end to end are the idea, the plan under its heading, the key-data heading and the two labelled excerpts |
| Pipeline.CriticTextLayout | python-backend/analyzer/langgraph_workflow.py:339-348 | the whole critic context: the idea, the plan under its heading, the key-data heading, then the first 1000 characters of the market analysis and of the cost prediction under their labels, each followed by `...` |
| Pipeline.RefinementText | python-backend/analyzer/langgraph_workflow.py:367-375 | the refinement context opens with the plan and the critique and closes with the refinement request |
| Pipeline.UserContextShape | python-backend/analyzer/langgraph_workflow.py:219-224 | the context opens with the idea line; the target market line follows iff the market is present and non-empty |
| Pipeline.CriticSeesBoundedPrefixes | python-backend/analyzer/langgraph_workflow.py:346-347 | whatever their lengths, two market and cost analyses that agree on their first 1000 characters give the critic the same context |
| Pipeline.ContextReadsOnlyDeclared | python-backend/analyzer/langgraph_workflow.py:299-375 | a node's context depends only on the inputs and the fields it declares to read |
| Pipeline.SuccessorFrom | python-backend/analyzer/langgraph_workflow.py:408-424 | when an edge from the scan position on leaves the node, the result is the target of the first such edge; with none, the run ends |
| Pipeline.Successor | python-backend/analyzer/langgraph_workflow.py:408-424 | a node with an outgoing edge goes to the target of the first one added; a node without one ends the run |
| Pipeline.Trace | python-backend/analyzer/langgraph_workflow.py:405-424 | following edges visits at most as many nodes as the step bound |
| Pipeline.GraphIsTheChain | python-backend/analyzer/langgraph_workflow.py:405-424 | every node's successor is the next stage, and the last leads to END |
| Pipeline.GraphRunsStageOrder | python-backend/main.py:394-413 | following the graph from its entry visits exactly the nine stages in order |
| Pipeline.TraceFollowsOrder | python-backend/main.py:394-413 | from any stage, the graph visits the rest of the order |
| Pipeline.TraceOfChain | python-backend/analyzer/langgraph_workflow.py:408-424 | in any graph whose edges chain a list of nodes one after the other, following the edges from a node visits the rest of the list |
| Pipeline.Node | python-backend/analyzer/langgraph_workflow.py:227-236 | a node fails with the model error when there is no model, and otherwise sends its own context |
| Pipeline.Step | python-backend/analyzer/langgraph_workflow.py:227-381 | a successful node changes its own field only; a failing node fails the step with its error |
| Pipeline.RunFrom | python-backend/analyzer/langgraph_workflow.py:456 | a run never changes the inputs |
| Pipeline.RunFrame | python-backend/analyzer/langgraph_workflow.py:227-381 | a field no remaining stage writes keeps its value |
| Pipeline.NoModelAbortsRun | python-backend/analyzer/langgraph_workflow.py:25-28 | with no model, the run fails with the model's error |
| Pipeline.RunStepSucceeds | python-backend/analyzer/langgraph_workflow.py:456 | after a node succeeds, the run continues from the state with its field set |
| Pipeline.RunStepFails | python-backend/analyzer/langgraph_workflow.py:456 | a failing node ends the run with its error |
| Pipeline.StageOrderEntries | python-backend/analyzer/langgraph_workflow.py:405-424 | the order is market, cost, business, monetization, legal, tech, synthesis, critic, final |
| Pipeline.ReviewRun | python-backend/analyzer/langgraph_workflow.py:334-381 | the critic and the refinement run on the synthesis compute the review data flow |
| Pipeline.DeliberationRun | python-backend/analyzer/langgraph_workflow.py:299-381 | the last three nodes compute the deliberation data flow |
| Pipeline.FromLegalRun | python-backend/analyzer/langgraph_workflow.py:275-381 | nodes five to nine compute the rest of the data flow |
| Pipeline.FromStrategyRun | python-backend/analyzer/langgraph_workflow.py:251-381 | nodes three to nine compute the rest of the data flow |
| Pipeline.RunIsDataFlow | python-backend/analyzer/langgraph_workflow.py:442-456 | running the graph from the initial state gives exactly the nine-node data flow, and the first failure decides the error |
| Pipeline.ToResult | python-backend/analyzer/langgraph_workflow.py:458-466 | the seven result fields are the six specialist outputs plus the final strategy as the critique |
| Pipeline.ResultHidesIntermediates | python-backend/analyzer/langgraph_workflow.py:458-466 | synthesis and critic text never reach the result |
| Workflow.ApiKey | python-backend/analyzer/langgraph_workflow.py:25 | the key is empty iff both the setting and the environment are empty; the setting wins |
| Workflow.GetLlm | python-backend/analyzer/langgraph_workflow.py:23-34 | raises `OPENAI_API_KEY is not configured` iff there is no key; otherwise the client for the key |
| Workflow.RunAnalysis | python-backend/analyzer/langgraph_workflow.py:429-466 | succeeds iff the graph run does, projecting it; otherwise the run's error |
| Workflow.NoKeyNoAnalysis | python-backend/analyzer/langgraph_workflow.py:25-28 | with no key the analysis fails with the key error |
| Workflow.AnalysisIsDataFlow | python-backend/analyzer/langgraph_workflow.py:429-466 | with a key, the analysis is the data flow with the client for that key |
| Server.AnalyzeStartup | python-backend/main.py:448-491 | answered iff the run succeeds, with success, the echoed project id and the projection; otherwise HTTP 500 with the error |
| Server.AnalyzeStartupIsDataFlow | python-backend/main.py:456-487 | the endpoint's answer is the nine-node data flow, mapped |
| Server.ProjectIdOnlyEchoed | python-backend/main.py:475-477 | the project id is echoed and never changes the analysis |
| AnalyzeView.EchoProjectId | python-backend/analyzer/views.py:61 | an absent or empty project id becomes None; any other is echoed |
| AnalyzeView.Post | python-backend/analyzer/views.py:37-86 | 400 with the errors when invalid; 200 iff the run succeeds, with defaults and copied fields; 500 with the error otherwise |
| AnalyzeView.InvalidRequestNeverRuns | python-backend/analyzer/views.py:39-44 | an invalid request is answered 400 without depending on the key or the model |
| AnalyzeView.MissingKeyIsServerError | python-backend/analyzer/views.py:81-86 | a valid request without a key gets a 500 naming the missing key |
| AnalyzeView.AnalyzedFieldsAreNodeOutputs | python-backend/analyzer/views.py:68-76 | whenever the view answers with an analysis (and a key is configured), all seven analysis fields are the nodes' outputs (market, cost, strategy, monetization, legal, tech stack, and the final strategy as critique) |
| Jwt.CreateJwtToken | python-backend/analyzer/jwt_utils.py:10-18 | the token encodes the user id, the email, an expiry of the first clock read plus the configured hours, and the second clock read as issue time |
| Jwt.IssuedClaims | python-backend/analyzer/jwt_utils.py:12-17 | claims name the user; `exp` is the first clock read plus the lifetime; `iat` is the second read |
| Jwt.DecodeJwtToken | python-backend/analyzer/jwt_utils.py:21-31 | None iff verification raises; otherwise the verified payload |
| Jwt.ParseBearer | python-backend/analyzer/jwt_utils.py:41-44 | a token iff the header starts with exactly `Bearer `; the token is the rest of the header |
| Jwt.BearerRoundTrip | python-backend/analyzer/jwt_utils.py:41-44 | `Bearer ` + token parses back to the token |
| Jwt.SchemeIsExact | python-backend/analyzer/jwt_utils.py:41-42 | `bearer ` and `Bearer` without its space are refused |
| Jwt.UserFromRequest | python-backend/analyzer/jwt_utils.py:34-45 | no user without a bearer header; otherwise the decode result unchanged |
| Jwt.IssuedTokenIdentifiesUser | python-backend/analyzer/jwt_utils.py:10-45 | an issued token sent back as a bearer header identifies its user when the verifier accepts it |
| Auth.NormalizeEmail | python-backend/analyzer/auth_views.py:20 | the normalised email is the stripped submission, lower-cased character by character: no surrounding whitespace and no capitals |
| Auth.NormalizeEmailIdempotent | python-backend/analyzer/auth_views.py:20 | a stored email normalises to itself |
| Auth.FindFrom | python-backend/analyzer/auth_views.py:39 | `find_one` by email gives the first matching document, or none iff no document matches |
| Auth.Register | python-backend/analyzer/auth_views.py:19-69 | 400 for missing fields, short passwords and taken emails, with the store unchanged; otherwise 201, one inserted user and a token |
| Auth.RegisterPreservesWellFormed | python-backend/analyzer/auth_views.py:39-57 | ids and emails stay unique |
| Auth.Login | python-backend/analyzer/auth_views.py:75-110 | 400 for missing fields; a token iff the user exists and the password checks; with both fields present every refusal is the one 401 invalid-credentials answer |
| Auth.LoginFailuresIndistinguishable | python-backend/analyzer/auth_views.py:88-99 | unknown email and wrong password give the identical 401 |
| Auth.FindAppended | python-backend/analyzer/auth_views.py:39-57 | a user inserted for an unused email is the one later lookups find |
| Auth.RegisterThenLogin | python-backend/analyzer/auth_views.py:19-110 | after registering, login with the same form succeeds with the new id |
| Auth.CurrentUser | python-backend/analyzer/auth_views.py:116-130 | 401 iff no verified token; otherwise the token's id and email |
| Auth.RegisterThenCurrentUser | python-backend/analyzer/auth_views.py:58-69 | the registration token makes current-user name the new account |
| Projects.ParseObjectId | python-backend/analyzer/project_views.py:105-111 | valid iff the text has 24 hexadecimal digits; the result is the canonical lower-case id |
| Projects.ObjectIdRoundTrip | python-backend/analyzer/project_views.py:20 | the id a response reports parses back to the same id |
| Projects.FieldOr | python-backend/analyzer/project_views.py:21-31 | a stored field is reported as is; a missing status reads `pending`, any other missing field null |
| Projects.Serialize | python-backend/analyzer/project_views.py:17-34 | the id, the owner, exactly the ten content fields with their defaults, and the timestamps |
| Projects.CallerId | python-backend/analyzer/jwt_utils.py:34-45 | the caller is known iff the request has a verifying token, and is its `user_id` |
| Projects.ConsNewestFirst | python-backend/analyzer/project_views.py:52 | a project no older than the rest can lead a newest-first order |
| Projects.ConsDistinct | python-backend/analyzer/project_views.py:50-53 | prepending a new id keeps ids distinct |
| Projects.InsertNewestFirst | python-backend/analyzer/project_views.py:52 | insertion adds exactly one id |
| Projects.InsertKeepsNewestFirst | python-backend/analyzer/project_views.py:52 | insertion keeps the order newest first |
| Projects.InsertKeepsDistinct | python-backend/analyzer/project_views.py:50-53 | inserting an absent id keeps ids distinct |
| Projects.SortNewestFirst | python-backend/analyzer/project_views.py:50-53 | the given projects, each once, sorted by `created_at` descending |
| Projects.List | python-backend/analyzer/project_views.py:40-55 | 401 without a caller; otherwise exactly the caller's projects, each once, newest first |
| Projects.NewProject | python-backend/analyzer/project_views.py:66-92 | the stripped idea, the market or null, `pending`, seven null analyses, and created = updated |
| Projects.AnalysisFieldsAreNotInputs | python-backend/analyzer/project_views.py:78-92 | the analysis field names differ from the three input names |
| Projects.Create | python-backend/analyzer/project_views.py:57-97 | 401 without a caller; 400 for a blank idea with nothing stored; otherwise 201 and only the new document added |
| Projects.ProjectOr404 | python-backend/analyzer/project_views.py:103-122 | 400 for a malformed id; the id iff the caller owns it; 404 otherwise |
| Projects.OthersProjectsLookMissing | python-backend/analyzer/project_views.py:114-120 | another user's project gets the same 404 as a missing one |
| Projects.Get | python-backend/analyzer/project_views.py:124-137 | 401, the lookup error, or the serialised project |
| Projects.AllowedUpdates | python-backend/analyzer/project_views.py:153-162 | exactly the allowlisted keys present in the request, with their values |
| Projects.Updated | python-backend/analyzer/project_views.py:160-171 | owner and creation time are kept; unchanged iff no allowed field was sent; else `updated_at` is now |
| Projects.Put | python-backend/analyzer/project_views.py:139-176 | 401 or the lookup error with the store unchanged; otherwise only the target is updated and returned |
| Projects.Delete | python-backend/analyzer/project_views.py:178-194 | 401 or the lookup error with the store unchanged; otherwise exactly the target is removed |
| Projects.UnauthenticatedIsRefused | python-backend/analyzer/project_views.py:42-47 | without a verified token every view answers 401 and changes nothing |
| Projects.PutPreservesWellFormed | python-backend/analyzer/project_views.py:153-171 | updates keep ids, owners and creation times, and add no field outside the allowlist |
| Projects.CreatePreservesWellFormed | python-backend/analyzer/project_views.py:78-95 | creation under a fresh id keeps the store well formed and the other projects unchanged |
| Projects.CreateThenGet | python-backend/analyzer/project_views.py:94-137 | the creator gets the created project back by its id; anyone else gets 404 |
| Projects.DeleteThenGet | python-backend/analyzer/project_views.py:187-194 | after deletion the owner gets 404 for it, and other projects are unaffected |

## Left out

- Prompt texts: the system prompts of the nine nodes are not modelled; a node is identified by its
  stage. The human-message contexts of the three deliberation nodes are modelled verbatim.
- The LLM client (`ChatOpenAI`) and the LangGraph engine: the client is a parameter and the
  compiled graph is a run over the stage order, tied to the declared edges by a lemma.
- The commented-out Groq variant of `get_llm` is not code and is not modelled.
- The file a loader opens is identified by its agent directory's name and its own name. The
  knowledge-base root is one fixed directory, so these two determine the full path.
- ChromaDB, the embeddings, the LangChain loaders and the text splitter: these are parameters.
  What a loader returns for a file is opaque, and chunk counts are whatever the splitter returns.
- `ensure_directories`, `get_chroma_client` and the logging: I/O with no effect on results.
- `get_upload_locations` and `_show_locations`: a static description. Only the upload path used by
  the single-agent report is modelled.
- Console output styling of the management command: the model keeps which line is printed, not
  its colour or emoji.
- The thin endpoints in `views.py` (`health_check`, `api_root`, `api_key_status`, the knowledge
  endpoints) and `urls.py` routing.
- `AnalyzeRequestSerializer`: validation is an input (the validated request, or its errors).
- FastAPI/DRF/CORS plumbing and `mongodb_utils.py`: the collections are values. The unique
  email index on `users` (python-backend/analyzer/mongodb_utils.py:30) is not modelled. Among
  requests handled one at a time it is never reached, because registration looks the email up
  first.
- Concurrency: requests are modelled one at a time, each seeing the store the previous one left.
  Interleaved requests are not modelled. Two registrations for one email can both pass the lookup
  (python-backend/analyzer/auth_views.py:39), and the second insert then fails on the unique index
  with a server error. The look-up-then-write steps of the project update and delete views race
  the same way.
- bcrypt: `hash` and `checkPassword` are parameters. The random salt is folded into `hash`.
- `jose`: `Encoder` and `Verifier` are parameters. Signature and expiry checking happen inside the
  verifier.
- The clock: successive `utcnow()` reads are a parameter. Timestamps are integers, and their
  `isoformat() + 'Z'` rendering is not modelled.
- Auth.NormalizeEmail: `str.lower()` is modelled for ASCII letters only. Python lower-cases every
  Unicode letter.
- Basics.Lower, Basics.LowerChar: only `A`-`Z` are lowered. Python's `str.lower()` also lowers
  every other cased letter, and a few characters (such as `İ`) lower to two code points, so in
  Python the length need not be kept. The model's length and idempotence facts hold for ASCII only.
- Projects.ParseObjectId: follows the documented 24-hex-digit rule. bson's use of
  `bytes.fromhex`, which also skips whitespace, is not modelled.
- Projects.CreatePreservesWellFormed: assumes the database assigns an id not yet in the store, as
  MongoDB does.
- Auth.RegisterPreservesWellFormed: same assumption for user ids.
- Projects.Serialize: `created_at` and `updated_at` are always present on modelled documents, so
  the `utcnow()` default of `serialize_project` is not modelled.
- Request bodies that are not strings where the code calls `.strip()` (a JSON null, a number):
  Python raises `AttributeError` there, giving an HTTP 500. Request fields are modelled as
  optional strings.
- Token payloads: decoded claims always carry `user_id` and `email`. A verified token without
  them (a `KeyError` in the views), or with an empty payload (falsy in `if not user`), is not
  modelled.
- Projects.List: MongoDB's order for projects with equal `created_at` is unspecified. The model
  promises newest first and nothing about ties.
- Exceptions raised by the database drivers themselves are not modelled.

=== FILE: analyze_view.dfy ===
/** `AnalyzeView.post`: request validation, the call to `run_analysis`, and the shape of the
    response the frontend receives. */
module AnalyzeView {
  import opened Basics
  import opened Pipeline
  import opened Workflow

  /** The validated request fields (`AnalyzeRequestSerializer` itself is not part of this model). */
  datatype AnalyzeRequest = AnalyzeRequest(startupIdea: string, targetMarket: Option<string>, projectId: Option<string>)

  /** The `orchestrator` block of a successful response. */
  datatype Orchestrator = Orchestrator(selectedAgents: seq<string>, reasoning: string, startupCategory: string,
                                       complexityScore: int)

  /** The three responses: 200 with the analysis, 400 with the serializer's errors, 500 with the
      message of what the run raised. */
  datatype AnalyzeResponse =
    | Analyzed(projectId: Option<string>, orchestrator: Orchestrator, analysis: AnalysisResult)
    | BadRequest(errors: string)
    | ServerError(error: string)
  {
    function Status(): nat {
      match this
      case Analyzed(_, _, _) => 200
      case BadRequest(_) => 400
      case ServerError(_) => 500
    }

    /** The `success` field. */
    predicate Succeeded() {
      Analyzed?
    }
  }

  /** `run_analysis` returns none of the orchestrator keys, so every `.get` falls back to its
      default. */
  const DefaultOrchestrator: Orchestrator := Orchestrator([], "", "", 5)

  /** `str(project_id) if project_id else None`: an empty id is falsy and becomes None. */
  function EchoProjectId(id: Option<string>): (r: Option<string>)
    ensures r.None? <==> id.None? || id.value == ""
    ensures r.Some? ==> r.value == id.value
  {
    if id.Some? && id.value != "" then id else None
  }

  /** `AnalyzeView.post`. */
  function Post(validation: Result<AnalyzeRequest, string>, src: KeySource, modelFor: ModelFor): (r: AnalyzeResponse)
    ensures validation.Failure? ==> r == BadRequest(validation.error)
    ensures validation.Success? ==>
      var run := RunAnalysis(src, modelFor, validation.value.startupIdea, validation.value.targetMarket);
      && (r.Analyzed? <==> run.Success?)
      && (r.ServerError? <==> run.Failure?)
      && (r.ServerError? ==> r.error == run.error)
      && (r.Analyzed? ==> r.analysis == run.value && r.orchestrator == DefaultOrchestrator
                          && r.projectId == EchoProjectId(validation.value.projectId))
  {
    match validation
    case Failure(errors) => BadRequest(errors)
    case Success(request) =>
      match RunAnalysis(src, modelFor, request.startupIdea, request.targetMarket)
      case Failure(e) => ServerError(e)
      case Success(result) => Analyzed(EchoProjectId(request.projectId), DefaultOrchestrator, result)
  }

  /** An invalid request is answered without running the analysis: the response does not depend
      on the key or the model at all. */
  lemma InvalidRequestNeverRuns(errors: string, src: KeySource, modelFor: ModelFor, src': KeySource, modelFor': ModelFor)
    ensures Post(Failure(errors), src, modelFor) == Post(Failure(errors), src', modelFor')
    ensures Post(Failure(errors), src, modelFor).Status() == 400 && !Post(Failure(errors), src, modelFor).Succeeded()
  {
  }

  /** A valid request with no OpenAI key configured is answered with a 500 naming the missing key. */
  lemma MissingKeyIsServerError(request: AnalyzeRequest, src: KeySource, modelFor: ModelFor)
    requires src.setting == "" && src.environ == ""
    ensures Post(Success(request), src, modelFor) == ServerError(NoKeyMessage)
  {
    NoKeyNoAnalysis(src, modelFor, request.startupIdea, request.targetMarket);
  }

  /** With a key, a successful answer carries, field by field, the outputs of the nodes that wrote
      them, the final refinement standing in as the strategist critique. */
  lemma AnalyzedFieldsAreNodeOutputs(request: AnalyzeRequest, src: KeySource, modelFor: ModelFor)
    requires src.setting != "" || src.environ != ""
    ensures Post(Success(request), src, modelFor).Analyzed? ==>
      var final := DataFlow(modelFor(ApiKey(src)), request.startupIdea, request.targetMarket);
      && final.Success?
      && Post(Success(request), src, modelFor).analysis.marketAnalysis == final.value.Get(MarketAnalysis)
      && Post(Success(request), src, modelFor).analysis.costPrediction == final.value.Get(CostPrediction)
      && Post(Success(request), src, modelFor).analysis.businessStrategy == final.value.Get(BusinessStrategy)
      && Post(Success(request), src, modelFor).analysis.monetization == final.value.Get(Monetization)
      && Post(Success(request), src, modelFor).analysis.legalConsiderations == final.value.Get(LegalConsiderations)
      && Post(Success(request), src, modelFor).analysis.techStack == final.value.Get(TechStack)
      && Post(Success(request), src, modelFor).analysis.strategistCritique == final.value.Get(FinalStrategy)
  {
    AnalysisIsDataFlow(src, modelFor, request.startupIdea, request.targetMarket);
  }
}

=== FILE: auth.dfy ===
/** The authentication views: registration and login over the `users` collection, and the
    current-user lookup from the bearer token. bcrypt and the clock are parameters; the collection
    is the sequence of its documents in insertion order, which is the order `find_one` scans. */
module Auth {
  import opened Basics
  import opened Jwt

  /** A document of the `users` collection. */
  datatype UserDoc = UserDoc(id: string, email: string, passwordHash: string, createdAt: int, updatedAt: int)

  type Users = seq<UserDoc>

  /** The collaborators of the views: bcrypt (the salt it draws folded into `hash`), the token
      encoder and the configured lifetime of a token. */
  datatype Services = Services(hash: string -> string, checkPassword: (string, string) -> bool,
                               encode: Encoder, expirationHours: int)

  /** The successive values `datetime.utcnow()` returns while one request is handled. */
  type Clock = nat -> int

  /** The `email` and `password` fields of the request body; absent reads as "". */
  datatype Form = Form(email: Option<string>, password: Option<string>)

  /** A response: a token with the user it names, or an error with its status. */
  datatype AuthReply = Issued(status: nat, token: string, userId: string, email: string)
                     | Refused(status: nat, error: string)

  const MissingCredentials: string := "Email and password are required"
  const ShortPassword: string := "Password must be at least 6 characters"
  const EmailTaken: string := "Email already registered"
  const InvalidCredentials: string := "Invalid login credentials"
  const MinPasswordLength: nat := 6

  /** `.strip().lower()` of the submitted email. */
  function NormalizeEmail(raw: Option<string>): (email: string)
    ensures |email| <= |raw.GetOr("")|
    ensures email == [] || (!IsSpace(email[0]) && !IsSpace(email[|email| - 1]))
    ensures forall i :: 0 <= i < |email| ==> !IsUpper(email[i])
    ensures |email| == |Strip(raw.GetOr(""))|
    ensures forall i :: 0 <= i < |email| ==> email[i] == LowerChar(Strip(raw.GetOr(""))[i])
  {
    Lower(Strip(raw.GetOr("")))
  }

  /** A normalised email normalises to itself, so the stored form is the form every later
      request is compared in. */
  lemma NormalizeEmailIdempotent(raw: Option<string>)
    ensures NormalizeEmail(Some(NormalizeEmail(raw))) == NormalizeEmail(raw)
  {
    var email := NormalizeEmail(raw);
    StripKeepsTrimmed(email);
    LowerIdempotent(Strip(raw.GetOr("")));
  }

  /** `users.find_one({'email': email})` from position `j` on: the first document with that
      email. */
  function FindFrom(users: Users, email: string, j: nat): (r: Option<nat>)
    requires j <= |users|
    ensures r.None? <==> forall k :: j <= k < |users| ==> users[k].email != email
    ensures r.Some? ==> j <= r.value < |users| && users[r.value].email == email
    ensures r.Some? ==> forall k :: j <= k < r.value ==> users[k].email != email
    decreases |users| - j
  {
    if j == |users| then None
    else if users[j].email == email then Some(j)
    else FindFrom(users, email, j + 1)
  }

  function FindByEmail(users: Users, email: string): Option<nat> {
    FindFrom(users, email, 0)
  }

  /** No two documents share an id, and no two share an email. */
  predicate WellFormed(users: Users) {
    && (forall i, j :: 0 <= i < j < |users| ==> users[i].id != users[j].id)
    && (forall i, j :: 0 <= i < j < |users| ==> users[i].email != users[j].email)
  }

  predicate FreshId(users: Users, id: string) {
    forall i :: 0 <= i < |users| ==> users[i].id != id
  }

  /** `RegisterView.post`: the reply and the collection afterwards. The checks run in order:
      both fields present, the password long enough, the email not yet registered; only then is
      a document inserted, under the id the database assigns. The first two clock reads stamp
      the document and the next two go into the token. */
  function Register(users: Users, form: Form, newId: string, s: Services, clock: Clock): (r: (AuthReply, Users))
    ensures var email := NormalizeEmail(form.email);
      var password := form.password.GetOr("");
      && (r.0.Issued? <==> email != "" && password != "" && |password| >= MinPasswordLength
                           && FindByEmail(users, email).None?)
      && (r.0.Refused? ==> r.1 == users && r.0.status == 400)
      && (email == "" || password == "" ==> r.0.error == MissingCredentials)
      && (email != "" && password != "" && |password| < MinPasswordLength ==> r.0.error == ShortPassword)
      && (email != "" && |password| >= MinPasswordLength && FindByEmail(users, email).Some? ==> r.0.error == EmailTaken)
      && (r.0.Issued? ==>
            && r.0.status == 201 && r.0.userId == newId && r.0.email == email
            && r.0.token == CreateJwtToken(s.encode, newId, email, s.expirationHours, clock(2), clock(3))
            && r.1 == users + [UserDoc(newId, email, s.hash(password), clock(0), clock(1))])
  {
    var email := NormalizeEmail(form.email);
    var password := form.password.GetOr("");
    if email == "" || password == "" then (Refused(400, MissingCredentials), users)
    else if |password| < MinPasswordLength then (Refused(400, ShortPassword), users)
    else if FindByEmail(users, email).Some? then (Refused(400, EmailTaken), users)
    else
      var doc := UserDoc(newId, email, s.hash(password), clock(0), clock(1));
      var token := CreateJwtToken(s.encode, newId, email, s.expirationHours, clock(2), clock(3));
      (Issued(201, token, newId, email), users + [doc])
  }

  /** Registration keeps ids and emails unique when the database hands out an unused id: a
      second account for an email is refused, whatever its spelling before normalisation. */
  lemma RegisterPreservesWellFormed(users: Users, form: Form, newId: string, s: Services, clock: Clock)
    requires WellFormed(users) && FreshId(users, newId)
    ensures WellFormed(Register(users, form, newId, s, clock).1)
  {
    var r := Register(users, form, newId, s, clock);
    if r.0.Issued? {
      var email := NormalizeEmail(form.email);
      assert FindFrom(users, email, 0).None?;
      var after := r.1;
      forall i, j | 0 <= i < j < |after|
        ensures after[i].id != after[j].id && after[i].email != after[j].email
      {
        if j == |users| {
          assert after[i] == users[i];
        }
      }
    }
  }

  /** `LoginView.post`: the same presence check as registration (there is no length check), then
      the document for the email and the password against its hash. Two clock reads go into the
      token. */
  function Login(users: Users, form: Form, s: Services, clock: Clock): (r: AuthReply)
    ensures var email := NormalizeEmail(form.email);
      var password := form.password.GetOr("");
      var found := FindByEmail(users, email);
      && (email == "" || password == "" ==> r == Refused(400, MissingCredentials))
      && (r.Issued? <==> email != "" && password != "" && found.Some?
                         && s.checkPassword(password, users[found.value].passwordHash))
      && (email != "" && password != "" && !r.Issued? ==> r == Refused(401, InvalidCredentials))
      && (r.Issued? ==>
            && r.status == 200 && r.userId == users[found.value].id && r.email == email
            && r.token == CreateJwtToken(s.encode, r.userId, email, s.expirationHours, clock(0), clock(1)))
  {
    var email := NormalizeEmail(form.email);
    var password := form.password.GetOr("");
    if email == "" || password == "" then Refused(400, MissingCredentials)
    else match FindByEmail(users, email)
      case None => Refused(401, InvalidCredentials)
      case Some(i) =>
        if !s.checkPassword(password, users[i].passwordHash) then Refused(401, InvalidCredentials)
        else
          var token := CreateJwtToken(s.encode, users[i].id, email, s.expirationHours, clock(0), clock(1));
          Issued(200, token, users[i].id, email)
  }

  /** An unknown email and a wrong password for a known one get the very same answer, so a
      failed login does not tell whether the account exists. */
  lemma LoginFailuresIndistinguishable(users: Users, unknown: Form, wrong: Form, s: Services, clock: Clock, clock': Clock)
    requires NormalizeEmail(unknown.email) != "" && unknown.password.GetOr("") != ""
    requires FindByEmail(users, NormalizeEmail(unknown.email)).None?
    requires NormalizeEmail(wrong.email) != "" && wrong.password.GetOr("") != ""
    requires var found := FindByEmail(users, NormalizeEmail(wrong.email));
      found.Some? && !s.checkPassword(wrong.password.GetOr(""), users[found.value].passwordHash)
    ensures Login(users, unknown, s, clock) == Login(users, wrong, s, clock') == Refused(401, InvalidCredentials)
  {
  }

  /** A document appended for an email nobody had is the one a later lookup of that email finds. */
  lemma FindAppended(users: Users, doc: UserDoc)
    requires FindByEmail(users, doc.email).None?
    ensures FindByEmail(users + [doc], doc.email) == Some(|users|)
  {
    var after := users + [doc];
    var found := FindFrom(after, doc.email, 0);
    assert after[|users|] == doc;
    assert forall k :: 0 <= k < |users| ==> after[k] == users[k];
  }

  /** Whoever registers can log in with the same form, whatever the clocks read, and is told the
      id the registration issued: bcrypt accepting a password against its own hash is all this
      needs. */
  lemma RegisterThenLogin(users: Users, form: Form, newId: string, s: Services, clock: Clock, later: Clock)
    requires Register(users, form, newId, s, clock).0.Issued?
    requires s.checkPassword(form.password.GetOr(""), s.hash(form.password.GetOr("")))
    ensures var after := Register(users, form, newId, s, clock).1;
      var reply := Login(after, form, s, later);
      reply.Issued? && reply.userId == newId && reply.email == NormalizeEmail(form.email)
  {
    var email := NormalizeEmail(form.email);
    var doc := UserDoc(newId, email, s.hash(form.password.GetOr("")), clock(0), clock(1));
    FindAppended(users, doc);
  }

  /** The answer of `CurrentUserView.get`. */
  datatype MeReply = Me(userId: string, email: string) | NotAuthenticated {
    function Status(): nat {
      if Me? then 200 else 401
    }
  }

  /** `CurrentUserView.get`: 401 unless the request carries a token that verifies, and otherwise
      the id and email the token's claims hold; the collection is not consulted. */
  function CurrentUser(authorization: Option<string>, verify: Verifier): (r: MeReply)
    ensures r.NotAuthenticated? <==> UserFromRequest(authorization, verify).None?
    ensures r.Me? ==> r.userId == UserFromRequest(authorization, verify).value.userId
    ensures r.Me? ==> r.email == UserFromRequest(authorization, verify).value.email
  {
    match UserFromRequest(authorization, verify)
    case None => NotAuthenticated
    case Some(claims) => Me(claims.userId, claims.email)
  }

  /** The token a registration returns, sent back as a bearer header, makes the current-user
      view name the new account, provided the verifier accepts what the encoder signed. */
  lemma RegisterThenCurrentUser(users: Users, form: Form, newId: string, s: Services, clock: Clock, verify: Verifier)
    requires Register(users, form, newId, s, clock).0.Issued?
    requires forall p :: verify(s.encode(p)) == Success(p)
    ensures var reply := Register(users, form, newId, s, clock).0;
      CurrentUser(Some(BearerPrefix + reply.token), verify) == Me(newId, NormalizeEmail(form.email))
  {
    var email := NormalizeEmail(form.email);
    IssuedTokenIdentifiesUser(s.encode, verify, newId, email, s.expirationHours, clock(2), clock(3));
  }
}

=== FILE: basics.dfy ===
/** Failure-compatible wrappers and the Python string operations the backend relies on
    (`strip`, `lower`, `startswith`, slicing, `join`, decimal rendering). */
module Basics {

  /** Python's `None` / a present value. */
  datatype Option<+T> = None | Some(value: T) {
    function GetOr(default: T): T {
      match this
      case Some(v) => v
      case None => default
    }
  }

  /** A value or the message of the exception that replaced it. */
  datatype Result<+T, +E> = Success(value: T) | Failure(error: E) {
    predicate IsFailure() {
      Failure?
    }

    function PropagateFailure<U>(): Result<U, E>
      requires Failure?
    {
      Failure(error)
    }

    function Extract(): T
      requires Success?
    {
      value
    }
  }

  /** An action that either completed or raised with a message. */
  datatype Outcome = Pass | Fail(message: string)

  // ---------------------------------------------------------------------------
  // Whitespace and `str.strip()`
  // ---------------------------------------------------------------------------

  /** The characters for which Python's `str.isspace()` holds. */
  predicate IsSpace(c: char) {
    || c == ' ' || ('\t' <= c <= '\r')
    || ('\U{1C}' <= c <= '\U{1F}') || c == '\U{85}' || c == '\U{A0}' || c == '\U{1680}'
    || ('\U{2000}' <= c <= '\U{200A}') || c == '\U{2028}' || c == '\U{2029}'
    || c == '\U{202F}' || c == '\U{205F}' || c == '\U{3000}'
  }

  predicate AllSpace(s: string) {
    forall i :: 0 <= i < |s| ==> IsSpace(s[i])
  }

  /** The position of the first non-whitespace character at or after `i`, or `|s|`. */
  function SkipSpace(s: string, i: nat): (k: nat)
    requires i <= |s|
    ensures i <= k <= |s|
    ensures forall m :: i <= m < k ==> IsSpace(s[m])
    ensures k < |s| ==> !IsSpace(s[k])
    decreases |s| - i
  {
    if i < |s| && IsSpace(s[i]) then SkipSpace(s, i + 1) else i
  }

  /** The position just after the last non-whitespace character before `j`, or 0. */
  function SkipSpaceBack(s: string, j: nat): (k: nat)
    requires j <= |s|
    ensures k <= j
    ensures forall m :: k <= m < j ==> IsSpace(s[m])
    ensures k > 0 ==> !IsSpace(s[k - 1])
  {
    if j > 0 && IsSpace(s[j - 1]) then SkipSpaceBack(s, j - 1) else j
  }

  /** `s.strip()`: whitespace removed on both sides, so that the result neither starts nor ends
      with whitespace. */
  function Strip(s: string): (r: string)
    ensures |r| <= |s|
    ensures r == [] || (!IsSpace(r[0]) && !IsSpace(r[|r| - 1]))
  {
    var i := SkipSpace(s, 0);
    var j := SkipSpaceBack(s, |s|);
    if j <= i then [] else s[i..j]
  }

  /** Stripping removes only whitespace: the result is the infix of `s` that starts where the
      leading whitespace ends, and everything before and after it is whitespace. */
  lemma StripRemovesOnlySpace(s: string)
    ensures SkipSpace(s, 0) + |Strip(s)| <= |s|
    ensures Strip(s) == s[SkipSpace(s, 0)..SkipSpace(s, 0) + |Strip(s)|]
    ensures forall m :: 0 <= m < SkipSpace(s, 0) ==> IsSpace(s[m])
    ensures forall m :: SkipSpace(s, 0) + |Strip(s)| <= m < |s| ==> IsSpace(s[m])
  {
    var i := SkipSpace(s, 0);
    var j := SkipSpaceBack(s, |s|);
    if i < |s| {
      assert i < j;
    }
  }

  /** A stripped string is empty exactly when the original held only whitespace
      (this is what makes `'   '` count as a missing value after `.strip()`). */
  lemma StripEmptyIffAllSpace(s: string)
    ensures Strip(s) == [] <==> AllSpace(s)
  {
    var i := SkipSpace(s, 0);
    var j := SkipSpaceBack(s, |s|);
    if i < |s| {
      assert i < j;
    }
  }

  /** A string with no whitespace at either end is left as it is. */
  lemma StripKeepsTrimmed(s: string)
    requires s == [] || (!IsSpace(s[0]) && !IsSpace(s[|s| - 1]))
    ensures Strip(s) == s
  {
    if s != [] {
      assert SkipSpace(s, 0) == 0;
      assert SkipSpaceBack(s, |s|) == |s|;
      assert s[0..|s|] == s;
    }
  }

  /** Stripping twice is stripping once. */
  lemma StripIdempotent(s: string)
    ensures Strip(Strip(s)) == Strip(s)
  {
    StripKeepsTrimmed(Strip(s));
  }

  // ---------------------------------------------------------------------------
  // `str.lower()` and `str.startswith()`
  // ---------------------------------------------------------------------------

  predicate IsUpper(c: char) {
    'A' <= c <= 'Z'
  }

  function LowerChar(c: char): (r: char)
    ensures !IsUpper(r)
    ensures !IsUpper(c) ==> r == c
    ensures IsUpper(c) ==> r as int == c as int + 32
  {
    if IsUpper(c) then (c as int - 'A' as int + 'a' as int) as char else c
  }

  /** `s.lower()` on the ASCII letters. */
  function Lower(s: string): (r: string)
    ensures |r| == |s|
    ensures forall i :: 0 <= i < |s| ==> r[i] == LowerChar(s[i])
  {
    seq(|s|, i requires 0 <= i < |s| => LowerChar(s[i]))
  }

  /** Lower-casing twice is lower-casing once, so normalised values are fixed points. */
  lemma LowerIdempotent(s: string)
    ensures Lower(Lower(s)) == Lower(s)
  {
  }

  predicate StartsWith(s: string, prefix: string) {
    |prefix| <= |s| && s[..|prefix|] == prefix
  }

  /** Whatever follows a prefix leaves it a prefix. */
  lemma StartsWithAppend(s: string, prefix: string, t: string)
    requires StartsWith(s, prefix)
    ensures StartsWith(s + t, prefix)
  {
    assert (s + t)[..|prefix|] == s[..|prefix|];
  }

  predicate EndsWith(s: string, suffix: string) {
    |suffix| <= |s| && s[|s| - |suffix|..] == suffix
  }

  /** Python's `s[:n]` for a non-negative `n`. */
  function Take(s: string, n: nat): (r: string)
    ensures |r| <= n && StartsWith(s, r)
    ensures |r| == if |s| < n then |s| else n
  {
    if |s| <= n then s else s[..n]
  }

  /** Python's `s[-n:]` for a positive `n`: the last `n` characters, or all of `s` when shorter. */
  function TakeLast(s: string, n: nat): (r: string)
    requires n > 0
    ensures |r| <= n && EndsWith(s, r)
    ensures |r| == if |s| < n then |s| else n
  {
    if |s| <= n then s else s[|s| - n..]
  }

  // ---------------------------------------------------------------------------
  // `sep.join(parts)`
  // ---------------------------------------------------------------------------

  function Join(sep: string, parts: seq<string>): string
  {
    if |parts| == 0 then ""
    else if |parts| == 1 then parts[0]
    else parts[0] + sep + Join(sep, parts[1..])
  }

  /** The parts written one after the other (`"".join(parts)`, or an f-string of several pieces). */
  function Concat(parts: seq<string>): string {
    if |parts| == 0 then "" else parts[0] + Concat(parts[1..])
  }

  /** Concatenating splits at any index into the concatenation of the parts before it and of
      the parts from it. */
  lemma {:induction false} ConcatSplit(parts: seq<string>, i: nat)
    requires i <= |parts|
    ensures Concat(parts) == Concat(parts[..i]) + Concat(parts[i..])
  {
    if i == 0 {
      assert parts[..0] == [] && parts[0..] == parts;
    } else {
      ConcatSplit(parts[1..], i - 1);
      assert parts[..i][1..] == parts[1..][..i - 1];
      assert parts[1..][i - 1..] == parts[i..];
    }
  }

  /** Three and four parts concatenate to the parts written one after the other. */
  lemma ConcatThree(a: string, b: string, c: string)
    ensures Concat([a, b, c]) == a + b + c
  {
    assert [a, b, c][1..] == [b, c] && [b, c][1..] == [c] && [c][1..] == [];
    assert Concat([c]) == c;
    assert Concat([b, c]) == b + c;
    assert a + (b + c) == a + b + c;
  }

  lemma ConcatFour(a: string, b: string, c: string, d: string)
    ensures Concat([a, b, c, d]) == a + b + c + d
  {
    assert [a, b, c, d][1..] == [b, c, d];
    ConcatThree(b, c, d);
  }

  /** A concatenation starts with its first operand and ends with its second. */
  lemma AppendEnds(a: string, b: string)
    ensures StartsWith(a + b, a) && EndsWith(a + b, b)
  {
    assert (a + b)[..|a|] == a;
    assert (a + b)[|a + b| - |b|..] == b;
  }

  /** One more part at the end of the list is one more piece at the end of the text. */
  lemma {:induction false} ConcatSnoc(parts: seq<string>, p: string)
    ensures Concat(parts + [p]) == Concat(parts) + p
  {
    if |parts| == 0 {
      assert parts + [p] == [p] && [p][1..] == [];
    } else {
      ConcatSnoc(parts[1..], p);
      assert (parts + [p])[1..] == parts[1..] + [p];
      assert parts[0] + (Concat(parts[1..]) + p) == parts[0] + Concat(parts[1..]) + p;
    }
  }

  /** The text of two lists laid end to end is the text of the first followed by that of the second. */
  lemma ConcatAppend(a: seq<string>, b: seq<string>)
    ensures Concat(a + b) == Concat(a) + Concat(b)
  {
    ConcatSplit(a + b, |a|);
    assert (a + b)[..|a|] == a && (a + b)[|a|..] == b;
  }

  lemma ConcatTwo(a: string, b: string)
    ensures Concat([a, b]) == a + b
  {
    assert [a, b][1..] == [b] && [b][1..] == [];
    assert Concat([b]) == b + "" == b;
  }

  /** Two more heading-and-body pairs at the end of the list are two more pieces of text. */
  lemma ConcatPairsAfter(g: seq<string>, a: string, b: string, c: string, d: string)
    ensures Concat(g + [a, b, c, d]) == Concat(g) + (a + b) + (c + d)
  {
    assert g + [a, b, c, d] == g + [a, b] + [c, d];
    ConcatAppend(g + [a, b], [c, d]);
    ConcatAppend(g, [a, b]);
    ConcatTwo(a, b);
    ConcatTwo(c, d);
  }

  lemma ConcatFive(a: string, b: string, c: string, d: string, e: string)
    ensures Concat([a, b, c, d, e]) == a + b + c + d + e
  {
    assert [a, b, c, d, e] == [a, b, c, d] + [e];
    ConcatFour(a, b, c, d);
    ConcatSnoc([a, b, c, d], e);
  }

  /** Joining splits at any interior index: the parts before `i`, one separator, the parts from `i`. */
  lemma {:induction false} JoinSplit(sep: string, parts: seq<string>, i: nat)
    requires 0 < i < |parts|
    ensures Join(sep, parts) == Join(sep, parts[..i]) + sep + Join(sep, parts[i..])
  {
    if i == 1 {
      assert parts[..1] == [parts[0]];
    } else {
      var rest := parts[1..];
      JoinSplit(sep, rest, i - 1);
      assert rest[..i - 1] == parts[..i][1..];
      assert rest[i - 1..] == parts[i..];
      assert Join(sep, parts[..i]) == parts[0] + sep + Join(sep, rest[..i - 1]);
    }
  }

  /** The i-th part of a join sits between the parts before it and the parts after it, with one
      separator on each side that has neighbours. */
  lemma JoinAround(sep: string, parts: seq<string>, i: nat)
    requires 0 <= i < |parts|
    ensures Join(sep, parts) ==
      Join(sep, parts[..i]) + (if i > 0 then sep else []) + parts[i]
      + (if i < |parts| - 1 then sep else []) + Join(sep, parts[i + 1..])
  {
    if |parts| == 1 {
    } else if i == 0 {
      assert parts[1..] == parts[i + 1..];
    } else if i == |parts| - 1 {
      JoinSplit(sep, parts, i);
      assert parts[i..] == [parts[i]];
    } else {
      JoinSplit(sep, parts, i);
      JoinInner(sep, parts, i);
    }
  }

  /** A part with parts after it opens the join of the rest, followed by a separator. */
  lemma JoinInner(sep: string, parts: seq<string>, i: nat)
    requires 0 < i < |parts| - 1
    ensures Join(sep, parts[i..]) == parts[i] + sep + Join(sep, parts[i + 1..])
  {
    JoinSplit(sep, parts[i..], 1);
    assert parts[i..][..1] == [parts[i]];
    assert parts[i..][1..] == parts[i + 1..];
  }

  // ---------------------------------------------------------------------------
  // Decimal rendering of naturals (`str(n)` / f-string `{n}`)
  // ---------------------------------------------------------------------------

  predicate IsDigit(c: char) {
    '0' <= c <= '9'
  }

  function DigitChar(d: nat): (c: char)
    requires d < 10
    ensures IsDigit(c) && c as int - '0' as int == d
  {
    ('0' as int + d) as char
  }

  /** `str(n)`: the decimal digits of `n`, most significant first, without leading zeros. */
  function NatToString(n: nat): (r: string)
    ensures |r| > 0 && (forall i :: 0 <= i < |r| ==> IsDigit(r[i]))
    ensures |r| > 1 ==> r[0] != '0'
  {
    if n < 10 then [DigitChar(n)] else NatToString(n / 10) + [DigitChar(n % 10)]
  }

  function DigitValue(c: char): nat
    requires IsDigit(c)
  {
    c as int - '0' as int
  }

  /** `int(s)` for a string of decimal digits. */
  function ParseDecimal(s: string): nat
    requires forall i :: 0 <= i < |s| ==> IsDigit(s[i])
  {
    if |s| == 0 then 0 else 10 * ParseDecimal(s[..|s| - 1]) + DigitValue(s[|s| - 1])
  }

  /** Reading back a rendered natural gives the natural: rendering is injective, so distinct
      numbers never render alike. */
  lemma {:induction false} ParseRendersBack(n: nat)
    ensures ParseDecimal(NatToString(n)) == n
  {
    if n >= 10 {
      var r := NatToString(n);
      assert r[..|r| - 1] == NatToString(n / 10);
      ParseRendersBack(n / 10);
    }
  }

  lemma NatToStringInjective(m: nat, n: nat)
    requires NatToString(m) == NatToString(n)
    ensures m == n
  {
    ParseRendersBack(m);
    ParseRendersBack(n);
  }
}

=== FILE: credentials.dfy ===
/** The Groq credential pool: three key slots read from configuration, a static table assigning
    agents to slots, lookup with fallback, an exclusion-based fallback and a status summary. */
module Credentials {
  import opened Basics

  datatype Slot = Key1 | Key2 | Key3

  /** The order in which slots are scanned (the insertion order of the configured-keys dict). */
  const SlotOrder: seq<Slot> := [Key1, Key2, Key3]

  function SlotId(s: Slot): string {
    match s
    case Key1 => "key_1"
    case Key2 => "key_2"
    case Key3 => "key_3"
  }

  /** The agent-to-slot assignment table, in declaration order. */
  const AgentKeyMapping: seq<(string, Slot)> := [
    ("orchestrator", Key1), ("market_analyst", Key1), ("cost_predictor", Key1),
    ("business_strategist", Key2), ("monetization", Key2), ("legal_advisor", Key2),
    ("tech_architect", Key3), ("strategist_synthesis", Key3), ("critic_review", Key3),
    ("final_refinement", Key3)
  ]

  predicate Mapped(agent: string) {
    exists i :: 0 <= i < |AgentKeyMapping| && AgentKeyMapping[i].0 == agent
  }

  /** The slot of the first entry from position `j` on that names the agent, if any. */
  function LookupFrom(table: seq<(string, Slot)>, agent: string, j: nat): (r: Option<Slot>)
    requires j <= |table|
    ensures r.None? <==> forall i :: j <= i < |table| ==> table[i].0 != agent
    ensures r.Some? ==> exists i :: j <= i < |table| && table[i] == (agent, r.value)
    decreases |table| - j
  {
    if j == |table| then None
    else if table[j].0 == agent then Some(table[j].1)
    else LookupFrom(table, agent, j + 1)
  }

  /** No agent is listed twice in the assignment table: the names differ in their first letter or
      in their length. */
  lemma MappingNamesDistinct(i: nat, j: nat)
    requires i < j < |AgentKeyMapping|
    ensures AgentKeyMapping[i].0 != AgentKeyMapping[j].0
  {
    var m := AgentKeyMapping;
    assert m[0].0[0] == 'o' && |m[0].0| == 12;
    assert m[1].0[0] == 'm' && |m[1].0| == 14;
    assert m[2].0[0] == 'c' && |m[2].0| == 14;
    assert m[3].0[0] == 'b';
    assert m[4].0[0] == 'm' && |m[4].0| == 12;
    assert m[5].0[0] == 'l';
    assert m[6].0[0] == 't';
    assert m[7].0[0] == 's';
    assert m[8].0[0] == 'c' && |m[8].0| == 13;
    assert m[9].0[0] == 'f';
  }

  /** Since names are not repeated, the entry lookup finds is the only entry for the agent. */
  lemma LookupFindsTheEntry(agent: string, i: nat)
    requires i < |AgentKeyMapping| && AgentKeyMapping[i].0 == agent
    ensures LookupFrom(AgentKeyMapping, agent, 0) == Some(AgentKeyMapping[i].1)
  {
    var r := LookupFrom(AgentKeyMapping, agent, 0);
    var k :| 0 <= k < |AgentKeyMapping| && AgentKeyMapping[k] == (agent, r.value);
    if i < k {
      MappingNamesDistinct(i, k);
    } else if k < i {
      MappingNamesDistinct(k, i);
    }
  }

  /** `AGENT_KEY_MAPPING.get(agent, 'key_1')`: an agent's designated slot; unknown agents get key_1. */
  function DesignatedSlot(agent: string): (s: Slot)
    ensures !Mapped(agent) ==> s == Key1
    ensures forall i :: 0 <= i < |AgentKeyMapping| && AgentKeyMapping[i].0 == agent ==>
      s == AgentKeyMapping[i].1
  {
    forall i | 0 <= i < |AgentKeyMapping| && AgentKeyMapping[i].0 == agent {
      LookupFindsTheEntry(agent, i);
    }
    LookupFrom(AgentKeyMapping, agent, 0).GetOr(Key1)
  }

  // ---------------------------------------------------------------------------
  // Configuration
  // ---------------------------------------------------------------------------

  /** Django settings and the process environment; an absent name reads as "". */
  datatype Config = Config(settings: map<string, string>, environ: map<string, string>)

  function Read(m: map<string, string>, name: string): string {
    if name in m then m[name] else ""
  }

  /** `getattr(settings, name, None) or os.getenv(name)`. */
  function Setting(cfg: Config, name: string): string {
    if Read(cfg.settings, name) != "" then Read(cfg.settings, name) else Read(cfg.environ, name)
  }

  /** The three configured keys; "" stands for an unset slot (None and "" are both falsy). */
  datatype KeyPool = KeyPool(key1: string, key2: string, key3: string) {
    function Get(s: Slot): string {
      match s
      case Key1 => key1
      case Key2 => key2
      case Key3 => key3
    }
  }

  /** `get_configured_keys`: slot 1 falls back to the unnumbered GROQ_API_KEY; slots 2 and 3 do not. */
  function ConfiguredKeys(cfg: Config): (pool: KeyPool)
    ensures pool.key1 != "" <==>
      Setting(cfg, "GROQ_API_KEY_1") != "" || Setting(cfg, "GROQ_API_KEY") != ""
    ensures Setting(cfg, "GROQ_API_KEY_1") != "" ==> pool.key1 == Setting(cfg, "GROQ_API_KEY_1")
    ensures Setting(cfg, "GROQ_API_KEY_1") == "" ==> pool.key1 == Setting(cfg, "GROQ_API_KEY")
    ensures pool.key2 == Setting(cfg, "GROQ_API_KEY_2")
    ensures pool.key3 == Setting(cfg, "GROQ_API_KEY_3")
  {
    var k1 := Setting(cfg, "GROQ_API_KEY_1");
    KeyPool(
      if k1 != "" then k1 else Setting(cfg, "GROQ_API_KEY"),
      Setting(cfg, "GROQ_API_KEY_2"),
      Setting(cfg, "GROQ_API_KEY_3"))
  }

  /** The unnumbered GROQ_API_KEY only ever reaches slot 1: changing it leaves slots 2 and 3 alone. */
  lemma GenericKeyOnlyFeedsSlotOne(cfg: Config, v: string, w: string)
    ensures
      var a := ConfiguredKeys(Config(cfg.settings["GROQ_API_KEY" := v], cfg.environ["GROQ_API_KEY" := w]));
      a.key2 == ConfiguredKeys(cfg).key2 && a.key3 == ConfiguredKeys(cfg).key3
  {
  }

  // ---------------------------------------------------------------------------
  // Lookup
  // ---------------------------------------------------------------------------

  predicate NoneConfigured(pool: KeyPool) {
    pool.key1 == "" && pool.key2 == "" && pool.key3 == ""
  }

  /** A slot found first after a head that does not qualify is found first in the whole sequence. */
  lemma PassOverHead(slots: seq<Slot>, skip: Slot -> bool, r: Option<Slot>)
    requires |slots| > 0 && skip(slots[0])
    requires r.Some? ==> exists j :: 0 <= j < |slots[1..]| && slots[1..][j] == r.value
                                     && forall i :: 0 <= i < j ==> skip(slots[1..][i])
    ensures r.Some? ==> exists j :: 0 <= j < |slots| && slots[j] == r.value
                                    && forall i :: 0 <= i < j ==> skip(slots[i])
  {
    if r.Some? {
      var j :| 0 <= j < |slots[1..]| && slots[1..][j] == r.value && forall i :: 0 <= i < j ==> skip(slots[1..][i]);
      assert slots[j + 1] == r.value;
      assert forall i :: 0 <= i < j + 1 ==> skip(slots[i]) by {
        forall i | 0 <= i < j + 1 ensures skip(slots[i]) {
          if i > 0 { assert slots[i] == slots[1..][i - 1]; }
        }
      }
    }
  }

  /** The first slot of `slots` holding a key, if any. */
  function FirstConfigured(pool: KeyPool, slots: seq<Slot>): (r: Option<Slot>)
    ensures r.None? <==> forall i :: 0 <= i < |slots| ==> pool.Get(slots[i]) == ""
    ensures r.Some? ==> r.value in slots && pool.Get(r.value) != ""
    ensures r.Some? ==> exists j :: 0 <= j < |slots| && slots[j] == r.value
                                    && forall i :: 0 <= i < j ==> pool.Get(slots[i]) == ""
  {
    if |slots| == 0 then None
    else if pool.Get(slots[0]) != "" then Some(slots[0])
    else
      var r := FirstConfigured(pool, slots[1..]);
      PassOverHead(slots, s => pool.Get(s) == "", r);
      r
  }

  /** The number of slots of `slots` holding a key. */
  function CountConfigured(pool: KeyPool, slots: seq<Slot>): nat {
    if |slots| == 0 then 0
    else (if pool.Get(slots[0]) != "" then 1 else 0) + CountConfigured(pool, slots[1..])
  }

  /** `get_available_keys`: the non-empty keys in slot order. */
  function AvailableKeys(pool: KeyPool): (r: seq<string>)
    ensures forall i :: 0 <= i < |r| ==> r[i] != ""
    ensures forall s: Slot :: pool.Get(s) != "" ==> pool.Get(s) in r
    ensures forall k :: k in r ==> k == pool.key1 || k == pool.key2 || k == pool.key3
    ensures |r| == 0 <==> NoneConfigured(pool)
  {
    (if pool.key1 != "" then [pool.key1] else [])
    + (if pool.key2 != "" then [pool.key2] else [])
    + (if pool.key3 != "" then [pool.key3] else [])
  }

  /** The available keys are one per configured slot, and the first of them is the key of the
      first configured slot in scan order. */
  lemma AvailableKeysInSlotOrder(pool: KeyPool)
    ensures |AvailableKeys(pool)| == CountConfigured(pool, SlotOrder)
    ensures |AvailableKeys(pool)| > 0 ==> FirstConfigured(pool, SlotOrder).Some?
    ensures |AvailableKeys(pool)| > 0 ==>
      AvailableKeys(pool)[0] == pool.Get(FirstConfigured(pool, SlotOrder).value)
  {
    assert SlotOrder[1..] == [Key2, Key3] && [Key2, Key3][1..] == [Key3] && [Key3][1..] == [];
    assert CountConfigured(pool, SlotOrder)
      == CountConfigured(pool, [Key2, Key3]) + (if pool.key1 != "" then 1 else 0);
    assert CountConfigured(pool, [Key2, Key3])
      == CountConfigured(pool, [Key3]) + (if pool.key2 != "" then 1 else 0);
    assert CountConfigured(pool, [Key3]) == (if pool.key3 != "" then 1 else 0);
    assert FirstConfigured(pool, SlotOrder)
      == if pool.key1 != "" then Some(Key1) else FirstConfigured(pool, [Key2, Key3]);
    assert FirstConfigured(pool, [Key2, Key3])
      == if pool.key2 != "" then Some(Key2) else FirstConfigured(pool, [Key3]);
  }

  /** `get_key_for_agent`: the designated slot's key if set, otherwise the first set key in slot
      order; raises (here: Failure) exactly when no slot is configured. */
  function KeyForAgent(pool: KeyPool, agent: string): (r: Result<string, string>)
    ensures r.Failure? <==> NoneConfigured(pool)
    ensures r.Success? ==> r.value != ""
    ensures pool.Get(DesignatedSlot(agent)) != "" ==> r == Success(pool.Get(DesignatedSlot(agent)))
  {
    var designated := pool.Get(DesignatedSlot(agent));
    if designated != "" then Success(designated)
    else match FirstConfigured(pool, SlotOrder)
      case Some(s) => Success(pool.Get(s))
      case None =>
        assert pool.Get(SlotOrder[0]) == "" && pool.Get(SlotOrder[1]) == "" && pool.Get(SlotOrder[2]) == "";
        Failure(NoKeysMessage)
  }

  const NoKeysMessage: string :=
    "No Groq API keys configured. Please set GROQ_API_KEY_1 (or GROQ_API_KEY), "
    + "GROQ_API_KEY_2, and/or GROQ_API_KEY_3 in your environment."

  /** Lookup agrees with the list of available keys: an agent whose own slot is empty is served
      the first available key, and every agent is served some available key. */
  lemma KeyForAgentUsesAvailableKeys(pool: KeyPool, agent: string)
    requires !NoneConfigured(pool)
    ensures KeyForAgent(pool, agent).Success?
    ensures KeyForAgent(pool, agent).value in AvailableKeys(pool)
    ensures pool.Get(DesignatedSlot(agent)) == "" ==> KeyForAgent(pool, agent).value == AvailableKeys(pool)[0]
  {
    if pool.Get(DesignatedSlot(agent)) == "" {
      var first := FirstConfigured(pool, SlotOrder);
      if pool.key1 != "" {
        assert first == Some(Key1);
      } else if pool.key2 != "" {
        assert SlotOrder[1..] == [Key2, Key3];
        assert first == FirstConfigured(pool, [Key2, Key3]) == Some(Key2);
      } else {
        assert SlotOrder[1..] == [Key2, Key3] && [Key2, Key3][1..] == [Key3];
        assert first == FirstConfigured(pool, [Key2, Key3]) == FirstConfigured(pool, [Key3]) == Some(Key3);
      }
    }
  }

  // ---------------------------------------------------------------------------
  // Exclusion-based fallback
  // ---------------------------------------------------------------------------

  predicate Eligible(pool: KeyPool, s: Slot, exclude: Option<string>) {
    pool.Get(s) != "" && Some(SlotId(s)) != exclude
  }

  /** The first slot of `slots` that holds a key and is not the excluded one, if any. */
  function FirstEligible(pool: KeyPool, slots: seq<Slot>, exclude: Option<string>): (r: Option<Slot>)
    ensures r.None? <==> forall i :: 0 <= i < |slots| ==> !Eligible(pool, slots[i], exclude)
    ensures r.Some? ==> r.value in slots && Eligible(pool, r.value, exclude)
    ensures r.Some? ==> exists j :: 0 <= j < |slots| && slots[j] == r.value
                                    && forall i :: 0 <= i < j ==> !Eligible(pool, slots[i], exclude)
  {
    if |slots| == 0 then None
    else if Eligible(pool, slots[0], exclude) then Some(slots[0])
    else
      var r := FirstEligible(pool, slots[1..], exclude);
      PassOverHead(slots, s => !Eligible(pool, s, exclude), r);
      r
  }

  /** `get_fallback_key(exclude_key_id)`: a key from a configured slot other than the excluded one,
      the first such in slot order; None when there is none. */
  function FallbackKey(pool: KeyPool, exclude: Option<string>): (r: Option<string>)
    ensures r.None? <==> forall s: Slot :: !Eligible(pool, s, exclude)
    ensures r.Some? ==> exists s: Slot :: Eligible(pool, s, exclude) && pool.Get(s) == r.value
    ensures r.Some? ==> r.value != ""
    ensures r.Some? ==> exists j :: 0 <= j < |SlotOrder| && Eligible(pool, SlotOrder[j], exclude)
                                    && r.value == pool.Get(SlotOrder[j])
                                    && forall i :: 0 <= i < j ==> !Eligible(pool, SlotOrder[i], exclude)
  {
    match FirstEligible(pool, SlotOrder, exclude)
    case Some(s) => Some(pool.Get(s))
    case None =>
      assert !Eligible(pool, SlotOrder[0], exclude) && !Eligible(pool, SlotOrder[1], exclude)
        && !Eligible(pool, SlotOrder[2], exclude);
      None
  }

  /** The fallback, stated slot by slot: key_1's key if key_1 is set and not excluded, else
      key_2's on the same terms, else key_3's, else none. */
  lemma FallbackKeyScansInOrder(pool: KeyPool, exclude: Option<string>)
    ensures FallbackKey(pool, exclude) ==
      if Eligible(pool, Key1, exclude) then Some(pool.key1)
      else if Eligible(pool, Key2, exclude) then Some(pool.key2)
      else if Eligible(pool, Key3, exclude) then Some(pool.key3)
      else None
  {
    var r := FallbackKey(pool, exclude);
    if r.Some? {
      var j :| 0 <= j < |SlotOrder| && Eligible(pool, SlotOrder[j], exclude)
               && r.value == pool.Get(SlotOrder[j])
               && forall i :: 0 <= i < j ==> !Eligible(pool, SlotOrder[i], exclude);
      assert SlotOrder[0] == Key1 && SlotOrder[1] == Key2 && SlotOrder[2] == Key3;
    } else {
      assert forall s: Slot :: !Eligible(pool, s, exclude);
    }
  }

  /** The fallback never serves the excluded slot: if only that slot is configured, there is no fallback. */
  lemma FallbackNeverReselects(pool: KeyPool, s: Slot)
    requires forall t: Slot :: t != s ==> pool.Get(t) == ""
    ensures FallbackKey(pool, Some(SlotId(s))) == None
  {
  }

  // ---------------------------------------------------------------------------
  // Status summary
  // ---------------------------------------------------------------------------

  /** `f"{key[:8]}...{key[-4:]}"`. */
  function MaskKey(key: string): (m: string)
    ensures StartsWith(m, Take(key, 8) + "...")
    ensures EndsWith(m, TakeLast(key, 4))
    ensures |m| == |Take(key, 8)| + 3 + |TakeLast(key, 4)|
  {
    Take(key, 8) + "..." + TakeLast(key, 4)
  }

  function AssignedAgents(table: seq<(string, Slot)>, s: Slot): (r: seq<string>)
    ensures |r| <= |table|
    ensures forall a :: a in r <==> exists i :: 0 <= i < |table| && table[i] == (a, s)
  {
    if |table| == 0 then []
    else
      var rest := AssignedAgents(table[1..], s);
      assert forall a, i :: 0 <= i < |table[1..]| && table[1..][i] == (a, s) ==> table[i + 1] == (a, s);
      if table[0].1 == s then [table[0].0] + rest else rest
  }

  datatype SlotStatus = SlotStatus(configured: bool, maskedKey: Option<string>, assignedAgents: seq<string>)
  datatype Summary = Summary(totalKeys: nat, configuredKeys: nat, fallbackActive: bool)
  datatype KeyStatus = KeyStatus(keys: seq<(string, SlotStatus)>, summary: Summary)

  /** One slot's entry: configured iff it holds a key, masked key present iff configured,
      and the agents the table assigns to it. */
  function SlotStatusOf(pool: KeyPool, table: seq<(string, Slot)>, s: Slot): (r: SlotStatus)
    ensures r.configured <==> pool.Get(s) != ""
    ensures r.maskedKey.None? <==> pool.Get(s) == ""
    ensures r.maskedKey.Some? ==> r.maskedKey.value == MaskKey(pool.Get(s))
    ensures r.assignedAgents == AssignedAgents(table, s)
  {
    var key := pool.Get(s);
    SlotStatus(key != "", if key != "" then Some(MaskKey(key)) else None, AssignedAgents(table, s))
  }

  /** The `keys` part of the status: one entry per slot, in slot order. */
  function SlotEntries(pool: KeyPool, table: seq<(string, Slot)>): (keys: seq<(string, SlotStatus)>)
    ensures |keys| == 3
    ensures forall i | 0 <= i < 3 ::
      keys[i].0 == SlotId(SlotOrder[i]) && keys[i].1 == SlotStatusOf(pool, table, SlotOrder[i])
  {
    [ (SlotId(Key1), SlotStatusOf(pool, table, Key1)),
      (SlotId(Key2), SlotStatusOf(pool, table, Key2)),
      (SlotId(Key3), SlotStatusOf(pool, table, Key3)) ]
  }

  /** `get_key_status`: the per-slot entries plus a summary that counts the configured slots,
      always reports three slots, and flags fallback whenever some slot is unset. */
  function GetKeyStatus(pool: KeyPool): (r: KeyStatus)
    ensures r.keys == SlotEntries(pool, AgentKeyMapping)
    ensures r.summary.totalKeys == 3
    ensures r.summary.configuredKeys == |AvailableKeys(pool)|
    ensures r.summary.fallbackActive <==> pool.key1 == "" || pool.key2 == "" || pool.key3 == ""
  {
    var count := CountConfigured(pool, SlotOrder);
    AvailableKeysInSlotOrder(pool);
    KeyStatus(SlotEntries(pool, AgentKeyMapping), Summary(3, count, count < 3))
  }

  /** The per-slot agent lists partition the assignment table: every mapped agent is listed under
      its designated slot and under no other. */
  lemma AssignedAgentsPartition(agent: string, s: Slot)
    requires Mapped(agent)
    ensures agent in AssignedAgents(AgentKeyMapping, s) <==> DesignatedSlot(agent) == s
  {
  }
}

=== FILE: jwt.dfy ===
/** `jwt_utils`: the claims a session token carries, the bearer header it travels in, and the
    lookup of the caller from a request. Signing and verification (`jose` with the configured secret
    and algorithm) and the clock are parameters. */
module Jwt {
  import opened Basics

  /** The claims of a token; times are seconds since the epoch. */
  datatype Payload = Payload(userId: string, email: string, exp: int, iat: int)

  /** `jwt.encode` with the configured secret and algorithm. */
  type Encoder = Payload -> string

  /** `jwt.decode` with the configured secret and algorithms: the claims, or the `JWTError` it
      raises for a bad signature, a malformed token or an expired one. */
  type Verifier = string -> Result<Payload, string>

  const SecondsPerHour: int := 3600

  /** `create_jwt_token`: the claims name the user and carry an expiry `expirationHours` after the
      first clock read and an issue time from the second read. */
  function CreateJwtToken(encode: Encoder, userId: string, email: string, expirationHours: int,
                          firstRead: int, secondRead: int): (token: string)
    ensures token == encode(Payload(userId, email, firstRead + expirationHours * SecondsPerHour, secondRead))
  {
    encode(IssuedClaims(userId, email, expirationHours, firstRead, secondRead))
  }

  /** The payload `create_jwt_token` builds before encoding it. */
  function IssuedClaims(userId: string, email: string, expirationHours: int, firstRead: int, secondRead: int)
    : (p: Payload)
    ensures p.userId == userId && p.email == email
    ensures p.exp - firstRead == expirationHours * SecondsPerHour
    ensures p.iat == secondRead
  {
    Payload(userId, email, firstRead + expirationHours * SecondsPerHour, secondRead)
  }

  /** `decode_jwt_token`: the payload when verification succeeds, None when it raises. */
  function DecodeJwtToken(verify: Verifier, token: string): (r: Option<Payload>)
    ensures r.None? <==> verify(token).Failure?
    ensures r.Some? ==> r.value == verify(token).value
  {
    match verify(token)
    case Success(payload) => Some(payload)
    case Failure(_) => None
  }

  const BearerPrefix: string := "Bearer "

  /** The token of an `Authorization` header: the header must start with exactly "Bearer ", the
      capital B and the trailing space included, and the token is everything after those seven
      characters. */
  function ParseBearer(header: string): (r: Option<string>)
    ensures r.Some? <==> StartsWith(header, BearerPrefix)
    ensures r.Some? ==> BearerPrefix + r.value == header
  {
    if StartsWith(header, BearerPrefix) then
      assert header == header[..7] + header[7..];
      Some(header[7..])
    else None
  }

  /** A header built from the prefix and any token parses back to that token. */
  lemma BearerRoundTrip(token: string)
    ensures ParseBearer(BearerPrefix + token) == Some(token)
  {
    var header := BearerPrefix + token;
    assert header[..7] == BearerPrefix;
    assert header[7..] == token;
  }

  /** The scheme is compared case-sensitively and needs its space: "bearer " and "Bearer" followed
      directly by the token are both refused. */
  lemma SchemeIsExact(token: string)
    ensures ParseBearer("bearer " + token).None?
    ensures token == "" || token[0] != ' ' ==> ParseBearer("Bearer" + token).None?
  {
    assert ("bearer " + token)[0] == 'b';
    if token == "" {
      assert |"Bearer" + token| == 6;
    } else if token[0] != ' ' {
      assert ("Bearer" + token)[6] == token[0];
    }
  }

  /** `get_user_from_request`: the header (empty when absent) must carry a bearer token, and the
      decode result is returned as it is. */
  function UserFromRequest(authorization: Option<string>, verify: Verifier): (r: Option<Payload>)
    ensures ParseBearer(authorization.GetOr("")).None? ==> r.None?
    ensures authorization.None? ==> r.None?
    ensures ParseBearer(authorization.GetOr("")).Some? ==>
      r == DecodeJwtToken(verify, ParseBearer(authorization.GetOr("")).value)
  {
    match ParseBearer(authorization.GetOr(""))
    case None => None
    case Some(token) => DecodeJwtToken(verify, token)
  }

  /** A token this module issued, sent back as a bearer header, identifies the user it was issued
      for whenever the verifier accepts it with the claims it was signed with. */
  lemma IssuedTokenIdentifiesUser(encode: Encoder, verify: Verifier, userId: string, email: string,
                                  expirationHours: int, firstRead: int, secondRead: int)
    requires var claims := IssuedClaims(userId, email, expirationHours, firstRead, secondRead);
      verify(encode(claims)) == Success(claims)
    ensures var token := CreateJwtToken(encode, userId, email, expirationHours, firstRead, secondRead);
      var user := UserFromRequest(Some(BearerPrefix + token), verify);
      user.Some? && user.value.userId == userId && user.value.email == email
  {
    BearerRoundTrip(CreateJwtToken(encode, userId, email, expirationHours, firstRead, secondRead));
  }
}

=== FILE: knowledge.dfy ===
/** Knowledge-base bookkeeping: which files a directory scan loads and how their documents are
    tagged, how one agent's knowledge is loaded into its collection, the three-agent
    initialisation and refresh, and the status report. Directory listings, document loaders,
    the text splitter, the vector store and the collection counter are collaborators passed in. */
module Knowledge {
  import opened Basics
  import opened Retrieval

  // ---------------------------------------------------------------------------
  // File-suffix dispatch
  // ---------------------------------------------------------------------------

  /** The loader families the directory scan knows. */
  datatype LoaderKind = Pdf | Text | Csv | Json | Word

  /** The suffixes that select a loader, lower-cased. */
  const SupportedSuffixes: seq<string> := [".pdf", ".txt", ".md", ".csv", ".json", ".docx", ".doc"]

  /** The position of the last '.' in `s`, if any. */
  function LastDot(s: string): (r: Option<nat>)
    ensures r.Some? ==> r.value < |s| && s[r.value] == '.'
    ensures r.Some? ==> forall k :: r.value < k < |s| ==> s[k] != '.'
    ensures r.None? ==> forall k :: 0 <= k < |s| ==> s[k] != '.'
  {
    if |s| == 0 then None
    else if s[|s| - 1] == '.' then Some(|s| - 1)
    else LastDot(s[..|s| - 1])
  }

  /** `PurePath(name).suffix`: from the last '.' to the end, provided that dot is neither the first
      nor the last character of the name; otherwise empty. */
  function Suffix(name: string): (r: string)
    ensures r != [] ==> 2 <= |r| < |name| && EndsWith(name, r) && r[0] == '.'
    ensures r != [] ==> forall k :: 0 < k < |r| ==> r[k] != '.'
    ensures r == [] ==> LastDot(name).None? || LastDot(name).value == 0 || LastDot(name).value == |name| - 1
  {
    match LastDot(name)
    case None => ""
    case Some(i) =>
      if 0 < i < |name| - 1 then
        assert forall k :: 0 < k < |name[i..]| ==> name[i..][k] == name[i + k];
        name[i..]
      else ""
  }

  /** The loader chosen for a lower-cased suffix; `None` means the file is skipped. */
  function LoaderFor(suffix: string): (r: Option<LoaderKind>)
    ensures r.Some? <==> suffix in SupportedSuffixes
    ensures r == Some(Text) <==> suffix == ".txt" || suffix == ".md"
    ensures r == Some(Word) <==> suffix == ".docx" || suffix == ".doc"
  {
    if suffix == ".pdf" then Some(Pdf)
    else if suffix == ".txt" || suffix == ".md" then Some(Text)
    else if suffix == ".csv" then Some(Csv)
    else if suffix == ".json" then Some(Json)
    else if suffix == ".docx" || suffix == ".doc" then Some(Word)
    else None
  }

  /** The loader for a file name: its suffix, lower-cased, decides. */
  function LoaderForFile(name: string): Option<LoaderKind> {
    LoaderFor(Lower(Suffix(name)))
  }

  /** Case does not matter to the dispatch: a name and its lower-cased form load alike. */
  lemma DispatchIgnoresCase(name: string)
    ensures LoaderForFile(name) == LoaderForFile(Lower(name))
  {
    LowerLastDot(name);
    var l := Lower(name);
    match LastDot(name)
    case None =>
    case Some(i) =>
      if 0 < i < |name| - 1 {
        assert Lower(name[i..]) == l[i..];
        LowerIdempotent(name[i..]);
      }
  }

  /** Lower-casing moves no dot: the letters it changes are never '.'. */
  lemma {:induction false} LowerLastDot(s: string)
    ensures LastDot(Lower(s)) == LastDot(s)
  {
    if |s| > 0 {
      assert Lower(s)[..|s| - 1] == Lower(s[..|s| - 1]);
      LowerLastDot(s[..|s| - 1]);
    }
  }

  // ---------------------------------------------------------------------------
  // Scanning one directory
  // ---------------------------------------------------------------------------

  /** One entry of a directory listing. */
  datatype Entry = Entry(name: string, isFile: bool)

  /** A directory that does not exist, or the entries `iterdir()` yields, in that order. */
  datatype Listing = Missing | Present(entries: seq<Entry>)

  /** What a loader produced for one file: its documents, or the message of what it raised. */
  datatype FileLoad = Loaded(docs: seq<Doc>) | LoadError(message: string)

  /** The document loaders: loader family, directory name and file name to the documents of the
      file at that path (the directories of different agents are different places). */
  type Reader = (LoaderKind, string, string) -> FileLoad

  /** Every document of a file is tagged with the file's name and the directory's name,
      overwriting any earlier values of those two keys and keeping every other key. */
  function Tag(docs: seq<Doc>, file: string, dir: string): (r: seq<Doc>)
    ensures |r| == |docs|
    ensures forall i :: 0 <= i < |r| ==>
      r[i].pageContent == docs[i].pageContent
      && r[i].metadata == docs[i].metadata[SourceFileKey := file][SourceDirKey := dir]
  {
    seq(|docs|, i requires 0 <= i < |docs| =>
      Doc(docs[i].metadata[SourceFileKey := file][SourceDirKey := dir], docs[i].pageContent))
  }

  /** What one directory entry contributes: nothing for a sub-directory, an unsupported suffix
      or a loader error, otherwise the file's documents, tagged. */
  function EntryDocs(read: Reader, dir: string, e: Entry): seq<Doc> {
    if !e.isFile then []
    else match LoaderForFile(e.name)
      case None => []
      case Some(kind) =>
        match read(kind, dir, e.name)
        case LoadError(_) => []
        case Loaded(docs) => Tag(docs, e.name, dir)
  }

  /** What each entry of a directory contributes. */
  function Contribution(read: Reader, dir: string): Entry -> seq<Doc> {
    e => EntryDocs(read, dir, e)
  }

  /** The contributions of a run of entries, in listing order. */
  function Collect(contribute: Entry -> seq<Doc>, entries: seq<Entry>): seq<Doc> {
    if |entries| == 0 then []
    else Collect(contribute, entries[..|entries| - 1]) + contribute(entries[|entries| - 1])
  }

  /** The documents of a run of entries, in listing order. */
  function LoadEntries(read: Reader, dir: string, entries: seq<Entry>): seq<Doc> {
    Collect(Contribution(read, dir), entries)
  }

  lemma {:induction false} CollectConcat(contribute: Entry -> seq<Doc>, a: seq<Entry>, b: seq<Entry>)
    ensures Collect(contribute, a + b) == Collect(contribute, a) + Collect(contribute, b)
  {
    if |b| == 0 {
      assert a + b == a;
    } else {
      var ab, init := a + b, b[..|b| - 1];
      assert ab[..|ab| - 1] == a + init && ab[|ab| - 1] == b[|b| - 1];
      CollectConcat(contribute, a, init);
    }
  }

  /** Scanning a listing in two pieces gives the documents of the first piece, then the second's. */
  lemma LoadEntriesConcat(read: Reader, dir: string, a: seq<Entry>, b: seq<Entry>)
    ensures LoadEntries(read, dir, a + b) == LoadEntries(read, dir, a) + LoadEntries(read, dir, b)
  {
    CollectConcat(Contribution(read, dir), a, b);
  }

  /** An entry that contributes nothing (a failing file, a skipped one) changes nothing else:
      the rest of the directory loads exactly as without it. */
  lemma SkippedEntryIsolated(read: Reader, dir: string, before: seq<Entry>, e: Entry, after: seq<Entry>)
    requires EntryDocs(read, dir, e) == []
    ensures LoadEntries(read, dir, before + [e] + after) == LoadEntries(read, dir, before + after)
  {
    var f := Contribution(read, dir);
    var withE := before + [e];
    assert f(e) == [];
    CollectConcat(f, withE, after);
    CollectConcat(f, before, after);
    assert withE[..|withE| - 1] == before && withE[|withE| - 1] == e;
    assert Collect(f, withE) == Collect(f, before);
  }

  /** A file whose loader raises is skipped. */
  lemma FailingFileContributesNothing(read: Reader, dir: string, e: Entry)
    requires e.isFile && LoaderForFile(e.name).Some?
    requires read(LoaderForFile(e.name).value, dir, e.name).LoadError?
    ensures EntryDocs(read, dir, e) == []
  {
  }

  /** Only files with a supported suffix contribute, and every document they contribute carries
      `source_file` = the file's name and `source_dir` = the directory's name. */
  lemma {:induction false} EveryDocumentTagged(read: Reader, dir: string, entries: seq<Entry>, d: Doc)
    requires d in LoadEntries(read, dir, entries)
    ensures SourceDirKey in d.metadata && d.metadata[SourceDirKey] == dir
    ensures SourceFileKey in d.metadata
    ensures exists e :: (e in entries && e.isFile && e.name == d.metadata[SourceFileKey]
      && Lower(Suffix(e.name)) in SupportedSuffixes)
  {
    var init := entries[..|entries| - 1];
    var last := entries[|entries| - 1];
    if d in LoadEntries(read, dir, init) {
      EveryDocumentTagged(read, dir, init, d);
      var e :| e in init && e.isFile && e.name == d.metadata[SourceFileKey]
        && Lower(Suffix(e.name)) in SupportedSuffixes;
      assert e in entries;
    } else {
      assert d in EntryDocs(read, dir, last);
      var docs := read(LoaderForFile(last.name).value, dir, last.name).docs;
      var i :| 0 <= i < |Tag(docs, last.name, dir)| && Tag(docs, last.name, dir)[i] == d;
      assert last in entries;
    }
  }

  /** One iteration of the directory scan: a file with a supported suffix whose loader succeeds
      contributes its documents, tagged; a sub-directory, an unsupported suffix or a raising
      loader contributes nothing. */
  method LoadEntry(read: Reader, dir: string, e: Entry) returns (added: seq<Doc>)
    ensures !e.isFile ==> added == []
    ensures LoaderForFile(e.name).None? ==> added == []
    ensures e.isFile && LoaderForFile(e.name).Some? ==>
      match read(LoaderForFile(e.name).value, dir, e.name)
      case LoadError(_) => added == []
      case Loaded(docs) => added == Tag(docs, e.name, dir)
  {
    added := [];
    if e.isFile {
      var kind := LoaderForFile(e.name);
      if kind.Some? {
        var loaded := read(kind.value, dir, e.name);
        if loaded.Loaded? {
          added := Tag(loaded.docs, e.name, dir);
        }
      }
    }
  }

  /** `load_documents_from_directory`: a missing directory yields no documents; otherwise each
      entry in listing order adds its tagged documents. */
  method LoadDocumentsFromDirectory(read: Reader, dir: string, listing: Listing) returns (documents: seq<Doc>)
    ensures listing.Missing? ==> documents == []
    ensures listing.Present? ==> documents == LoadEntries(read, dir, listing.entries)
  {
    documents := [];
    if listing.Missing? {
      return;
    }
    var entries := listing.entries;
    var i := 0;
    while i < |entries|
      invariant 0 <= i <= |entries|
      invariant documents == LoadEntries(read, dir, entries[..i])
    {
      var added := LoadEntry(read, dir, entries[i]);
      documents := documents + added;
      assert entries[..i + 1][..i] == entries[..i];
      i := i + 1;
    }
    assert entries[..i] == entries;
  }

  /** The documents of a directory, as the scan above produces them. */
  function DirectoryDocuments(read: Reader, dir: string, listing: Listing): seq<Doc> {
    match listing
    case Missing => []
    case Present(entries) => LoadEntries(read, dir, entries)
  }

  // ---------------------------------------------------------------------------
  // Loading, initialising, refreshing, reporting
  // ---------------------------------------------------------------------------

  /** The collaborators of the knowledge base:
      the knowledge-base root path, each agent's directory listing, the document loaders,
      the chunker, the indexer (raising or not) and the per-collection counter
      (`None` when the store has no collection object, a failure when it raises). */
  datatype Backend = Backend(
    root: string,
    listing: KnowledgeAgent -> Listing,
    read: Reader,
    split: seq<Doc> -> Result<seq<Doc>, string>,
    index: (string, seq<Doc>) -> Outcome,
    count: string -> Result<Option<nat>, string>)

  function UnknownAgentMessage(agentType: string): string {
    "Unknown agent type: " + agentType + ". Must be one of ['legal', 'market', 'costs']"
  }

  /** The documents found in an agent's directory. */
  function AgentDocuments(b: Backend, a: KnowledgeAgent): seq<Doc> {
    DirectoryDocuments(b.read, AgentTypeName(a), b.listing(a))
  }

  /** `load_agent_knowledge`: the number of chunks indexed into the agent's own collection.
      An unknown type raises before anything is read; an empty directory gives 0 without chunking;
      a chunker or indexer failure propagates; an empty chunk list is never indexed. */
  function LoadAgentKnowledge(b: Backend, agentType: string): (r: Result<nat, string>)
    ensures ParseAgentType(agentType).None? ==> r == Failure(UnknownAgentMessage(agentType))
    ensures ParseAgentType(agentType).Some? && AgentDocuments(b, ParseAgentType(agentType).value) == [] ==>
      r == Success(0)
    ensures r.Success? && r.value > 0 ==>
      var a := ParseAgentType(agentType).value;
      var chunks := b.split(AgentDocuments(b, a));
      chunks.Success? && |chunks.value| == r.value && b.index(CollectionOf(a), chunks.value) == Pass
    ensures ParseAgentType(agentType).Some? && AgentDocuments(b, ParseAgentType(agentType).value) != [] ==>
      var a := ParseAgentType(agentType).value;
      var chunks := b.split(AgentDocuments(b, a));
      (r.Failure? <==> chunks.Failure? || (|chunks.value| > 0 && b.index(CollectionOf(a), chunks.value).Fail?))
    ensures ParseAgentType(agentType).Some? && AgentDocuments(b, ParseAgentType(agentType).value) != [] && r.Success? ==>
      var chunks := b.split(AgentDocuments(b, ParseAgentType(agentType).value));
      chunks.Success? && r.value == |chunks.value|
  {
    match ParseAgentType(agentType)
    case None => Failure(UnknownAgentMessage(agentType))
    case Some(a) =>
      var documents := AgentDocuments(b, a);
      if documents == [] then Success(0)
      else
        var chunks :- b.split(documents);
        if chunks == [] then Success(0)
        else
          match b.index(CollectionOf(a), chunks)
          case Fail(message) => Failure(message)
          case Pass => Success(|chunks|)
  }

  /** One agent's entry in a result dictionary. */
  datatype AgentCount = AgentCount(agent: string, count: nat)

  /** A count, with a failure recorded as 0. */
  function CountOrZero(r: Result<nat, string>): nat {
    match r
    case Success(n) => n
    case Failure(_) => 0
  }

  /** `initialize_knowledge_base`: exactly the three agents in order legal, market, costs, each with
      its own load result, a failure recorded as 0; it never raises. */
  function InitializeKnowledgeBase(b: Backend): (r: seq<AgentCount>)
    ensures |r| == 3
    ensures forall i :: 0 <= i < 3 ==>
      r[i].agent == AgentTypeName(AgentOrder[i])
      && r[i].count == CountOrZero(LoadAgentKnowledge(b, AgentTypeName(AgentOrder[i])))
  {
    seq(3, i requires 0 <= i < 3 =>
      var name := AgentTypeName(AgentOrder[i]);
      AgentCount(name, CountOrZero(LoadAgentKnowledge(b, name))))
  }

  /** An agent whose load fails is recorded as 0 and the others are unaffected: each entry is a
      function of that agent's own directory, loaders, chunker and indexer only. */
  lemma InitializeIsolatesAgents(b: Backend, c: Backend, i: nat)
    requires i < 3
    requires b.listing(AgentOrder[i]) == c.listing(AgentOrder[i]) && b.read == c.read
    requires b.split == c.split && b.index == c.index
    ensures InitializeKnowledgeBase(b)[i] == InitializeKnowledgeBase(c)[i]
  {
  }

  /** `refresh_knowledge_base`: with a non-empty agent type, that agent alone (and its failure
      propagates); with none or an empty one, the full initialisation. */
  function RefreshKnowledgeBase(b: Backend, agentType: Option<string>): (r: Result<seq<AgentCount>, string>)
    ensures (agentType.None? || agentType.value == "") ==> r == Success(InitializeKnowledgeBase(b))
    ensures agentType.Some? && agentType.value != "" ==>
      (r.Failure? <==> LoadAgentKnowledge(b, agentType.value).Failure?)
    ensures agentType.Some? && agentType.value != "" && r.Success? ==>
      r.value == [AgentCount(agentType.value, LoadAgentKnowledge(b, agentType.value).value)]
  {
    if agentType.Some? && agentType.value != "" then
      var count :- LoadAgentKnowledge(b, agentType.value);
      Success([AgentCount(agentType.value, count)])
    else
      Success(InitializeKnowledgeBase(b))
  }

  /** One collection's status entry. */
  datatype CollectionStatus = CollectionStatus(collection: string, chunks: nat, error: Option<string>, directory: string)

  datatype AgentStatus = AgentStatus(agent: string, info: CollectionStatus)

  /** `get_knowledge_base_status`: one entry per agent in order; a counter failure is reported as
      0 chunks with the error message, a missing collection object as 0 chunks without error. */
  function KnowledgeBaseStatus(b: Backend): (r: seq<AgentStatus>)
    ensures |r| == 3
    ensures forall i :: 0 <= i < 3 ==>
      var a := AgentOrder[i];
      var info := r[i].info;
      r[i].agent == AgentTypeName(a)
      && info.collection == CollectionOf(a)
      && info.directory == b.root + "/" + AgentTypeName(a)
      && (info.error.Some? <==> b.count(CollectionOf(a)).Failure?)
      && (info.error.Some? ==> info.error.value == b.count(CollectionOf(a)).error && info.chunks == 0)
      && (b.count(CollectionOf(a)) == Success(None) ==> info.chunks == 0)
      && (forall n :: b.count(CollectionOf(a)) == Success(Some(n)) ==> info.chunks == n)
  {
    seq(3, i requires 0 <= i < 3 =>
      var a := AgentOrder[i];
      var directory := b.root + "/" + AgentTypeName(a);
      var info :=
        match b.count(CollectionOf(a))
        case Failure(e) => CollectionStatus(CollectionOf(a), 0, Some(e), directory)
        case Success(Some(n)) => CollectionStatus(CollectionOf(a), n, None, directory)
        case Success(None) => CollectionStatus(CollectionOf(a), 0, None, directory);
      AgentStatus(AgentTypeName(a), info))
  }
}

=== FILE: load_command.dfy ===
/** The `load_knowledge` management command: which action a set of flags selects, the report of a
    full load with its total, the report of a single-agent load and the status classification. */
module LoadKnowledgeCommand {
  import opened Basics
  import opened Retrieval
  import opened Knowledge

  /** The parsed flags; `--agent` is restricted by the argument parser to the three agent types. */
  datatype Options = Options(all: bool, agent: Option<KnowledgeAgent>, status: bool, locations: bool, refresh: bool)

  /** What `handle` does. */
  datatype Action = ShowLocations | ShowStatus | LoadAll | LoadAgent(agent: KnowledgeAgent) | WarnThenStatus

  /** `handle`: `--locations` first, then `--status`, then `--all` or `--refresh` (the same full
      load), then `--agent`; with none of them a warning followed by the status. */
  function Handle(o: Options): (r: Action)
    ensures r == ShowLocations <==> o.locations
    ensures r == ShowStatus <==> !o.locations && o.status
    ensures r == LoadAll <==> !o.locations && !o.status && (o.all || o.refresh)
    ensures r.LoadAgent? <==> !o.locations && !o.status && !o.all && !o.refresh && o.agent.Some?
    ensures r.LoadAgent? ==> r.agent == o.agent.value
    ensures r == WarnThenStatus <==> !o.locations && !o.status && !o.all && !o.refresh && o.agent.None?
  {
    if o.locations then ShowLocations
    else if o.status then ShowStatus
    else if o.all || o.refresh then LoadAll
    else if o.agent.Some? then LoadAgent(o.agent.value)
    else WarnThenStatus
  }

  /** Flags of lower precedence never change the action chosen by one of higher precedence. */
  lemma PrecedenceIsStable(o: Options, p: Options)
    ensures o.locations && p.locations ==> Handle(o) == Handle(p)
    ensures !o.locations && !p.locations && o.status && p.status ==> Handle(o) == Handle(p)
    ensures (!o.locations && !p.locations && !o.status && !p.status
      && (o.all || o.refresh) && (p.all || p.refresh)) ==> Handle(o) == Handle(p)
  {
  }

  // ---------------------------------------------------------------------------
  // `_load_all`
  // ---------------------------------------------------------------------------

  /** One line of the full-load report. */
  datatype LoadLine = LoadedChunks(agent: string, count: nat) | NoDocumentsFound(agent: string)

  function SumCounts(results: seq<AgentCount>): nat {
    if |results| == 0 then 0 else SumCounts(results[..|results| - 1]) + results[|results| - 1].count
  }

  /** `_load_all`'s loop over the result dictionary: one line per agent in order, a success line
      exactly when the count is positive, and the running total. */
  method ReportLoadAll(results: seq<AgentCount>) returns (lines: seq<LoadLine>, total: nat)
    ensures |lines| == |results|
    ensures forall i :: 0 <= i < |results| ==>
      lines[i].agent == results[i].agent
      && (lines[i].LoadedChunks? <==> results[i].count > 0)
      && (lines[i].LoadedChunks? ==> lines[i].count == results[i].count)
    ensures total == SumCounts(results)
  {
    lines := [];
    total := 0;
    var i := 0;
    while i < |results|
      invariant 0 <= i <= |results|
      invariant |lines| == i
      invariant forall j :: 0 <= j < i ==>
        lines[j].agent == results[j].agent
        && (lines[j].LoadedChunks? <==> results[j].count > 0)
        && (lines[j].LoadedChunks? ==> lines[j].count == results[j].count)
      invariant total == SumCounts(results[..i])
    {
      var entry := results[i];
      if entry.count > 0 {
        lines := lines + [LoadedChunks(entry.agent, entry.count)];
      } else {
        lines := lines + [NoDocumentsFound(entry.agent)];
      }
      assert results[..i + 1][..i] == results[..i];
      total := total + entry.count;
      i := i + 1;
    }
    assert results[..i] == results;
  }

  /** Three results sum to the three counts. */
  lemma SumOfThree(r: seq<AgentCount>)
    requires |r| == 3
    ensures SumCounts(r) == r[0].count + r[1].count + r[2].count
  {
    assert r[..2][..1] == r[..1] && r[..1][..0] == [];
    assert SumCounts(r) == SumCounts(r[..2]) + r[2].count;
    assert SumCounts(r[..2]) == SumCounts(r[..1]) + r[1].count;
    assert SumCounts(r[..1]) == SumCounts(r[..0]) + r[0].count;
  }

  /** The total of a full load is the sum of the three agents' own counts, a failed agent
      counting 0. */
  lemma LoadAllTotal(b: Backend)
    ensures SumCounts(InitializeKnowledgeBase(b)) ==
      CountOrZero(LoadAgentKnowledge(b, AgentTypeName(Legal)))
      + CountOrZero(LoadAgentKnowledge(b, AgentTypeName(Market)))
      + CountOrZero(LoadAgentKnowledge(b, AgentTypeName(Costs)))
  {
    var r := InitializeKnowledgeBase(b);
    SumOfThree(r);
    assert AgentOrder[0] == Legal && AgentOrder[1] == Market && AgentOrder[2] == Costs;
  }

  // ---------------------------------------------------------------------------
  // `_load_agent`
  // ---------------------------------------------------------------------------

  /** The outcome of loading one agent: its chunk count, or no documents with the upload path. */
  datatype AgentReport = LoadedAgent(count: nat) | NoDocumentsFor(uploadPath: string)

  /** `_load_agent`: a failure becomes a command error naming the agent; a positive count is
      reported as loaded; zero points the user at the agent's upload directory. */
  function LoadAgentReport(b: Backend, a: KnowledgeAgent): (r: Result<AgentReport, string>)
    ensures LoadAgentKnowledge(b, AgentTypeName(a)).Failure? <==> r.Failure?
    ensures r.Failure? ==>
      r.error == "Failed to load " + AgentTypeName(a) + " knowledge: " + LoadAgentKnowledge(b, AgentTypeName(a)).error
    ensures r.Success? ==>
      (r.value.LoadedAgent? <==> LoadAgentKnowledge(b, AgentTypeName(a)).value > 0)
    ensures r.Success? && r.value.LoadedAgent? ==> r.value.count == LoadAgentKnowledge(b, AgentTypeName(a)).value
    ensures r.Success? && r.value.NoDocumentsFor? ==> r.value.uploadPath == b.root + "/" + AgentTypeName(a)
  {
    match LoadAgentKnowledge(b, AgentTypeName(a))
    case Failure(e) => Failure("Failed to load " + AgentTypeName(a) + " knowledge: " + e)
    case Success(count) =>
      if count > 0 then Success(LoadedAgent(count)) else Success(NoDocumentsFor(b.root + "/" + AgentTypeName(a)))
  }

  // ---------------------------------------------------------------------------
  // `_show_status`
  // ---------------------------------------------------------------------------

  /** One line of the status report. */
  datatype StatusLine = StatusError(agent: string, error: string)
                      | StatusLoaded(agent: string, chunks: nat)
                      | StatusNoData(agent: string, directory: string)

  /** An error is reported only when one is present and non-empty (Python truthiness); otherwise
      positive chunks are reported as loaded, and anything else as no data. */
  function ClassifyStatus(s: AgentStatus): (r: StatusLine)
    ensures r.agent == s.agent
    ensures r.StatusError? <==> s.info.error.Some? && s.info.error.value != ""
    ensures r.StatusLoaded? <==> !(s.info.error.Some? && s.info.error.value != "") && s.info.chunks > 0
    ensures r.StatusError? ==> r.error == s.info.error.value
    ensures r.StatusLoaded? ==> r.chunks == s.info.chunks
    ensures r.StatusNoData? ==> r.directory == s.info.directory
  {
    if s.info.error.Some? && s.info.error.value != "" then StatusError(s.agent, s.info.error.value)
    else if s.info.chunks > 0 then StatusLoaded(s.agent, s.info.chunks)
    else StatusNoData(s.agent, s.info.directory)
  }

  /** `_show_status` over the store: one classified line per agent, in order. */
  function StatusReport(b: Backend): (r: seq<StatusLine>)
    ensures |r| == 3
    ensures forall i :: 0 <= i < 3 ==> r[i] == ClassifyStatus(KnowledgeBaseStatus(b)[i])
  {
    var status := KnowledgeBaseStatus(b);
    seq(3, i requires 0 <= i < 3 => ClassifyStatus(status[i]))
  }

  /** Against the store: an agent's line is an error exactly when counting its collection raised
      with a non-empty message, and loaded exactly when the count succeeded and is positive. A
      counter that raises with an empty message is therefore shown as having no data. */
  lemma StatusLineMeaning(b: Backend, i: nat)
    requires i < 3
    ensures var c := b.count(CollectionOf(AgentOrder[i]));
      (StatusReport(b)[i].StatusError? <==> c.Failure? && c.error != "")
      && (StatusReport(b)[i].StatusLoaded? <==> c.Success? && c.value.Some? && c.value.value > 0)
  {
    var st := KnowledgeBaseStatus(b)[i];
    var c := b.count(CollectionOf(AgentOrder[i]));
    if c.Success? && c.value.Some? {
      assert st.info.chunks == c.value.value;
    }
  }
}

=== FILE: pipeline.dfy ===
/** The nine-stage analysis pipeline shared by the Django workflow and the standalone server:
    the analysis state, the stages with the one field each writes and the fields each reads, the
    context text each stage hands the language model, the graph's edge list, and the run as a
    fold over the stage order. The language model is a generator function passed in. */
module Pipeline {
  import opened Basics

  // ---------------------------------------------------------------------------
  // State
  // ---------------------------------------------------------------------------

  /** The nine output fields of the analysis state. */
  datatype Field = MarketAnalysis | CostPrediction | BusinessStrategy | Monetization
                 | LegalConsiderations | TechStack | StrategistSynthesis | CriticReview | FinalStrategy

  /** `AnalysisState`: the two inputs and the nine outputs. */
  datatype AnalysisState = AnalysisState(
    startupIdea: string,
    targetMarket: Option<string>,
    marketAnalysis: string,
    costPrediction: string,
    businessStrategy: string,
    monetization: string,
    legalConsiderations: string,
    techStack: string,
    strategistSynthesis: string,
    criticReview: string,
    finalStrategy: string)
  {
    function Get(f: Field): string {
      match f
      case MarketAnalysis => marketAnalysis
      case CostPrediction => costPrediction
      case BusinessStrategy => businessStrategy
      case Monetization => monetization
      case LegalConsiderations => legalConsiderations
      case TechStack => techStack
      case StrategistSynthesis => strategistSynthesis
      case CriticReview => criticReview
      case FinalStrategy => finalStrategy
    }

    /** Merging a node's single-key update: that field takes the value, nothing else changes. */
    function Set(f: Field, v: string): (r: AnalysisState)
      ensures r.Get(f) == v
      ensures forall g :: g != f ==> r.Get(g) == Get(g)
      ensures r.startupIdea == startupIdea && r.targetMarket == targetMarket
    {
      match f
      case MarketAnalysis => this.(marketAnalysis := v)
      case CostPrediction => this.(costPrediction := v)
      case BusinessStrategy => this.(businessStrategy := v)
      case Monetization => this.(monetization := v)
      case LegalConsiderations => this.(legalConsiderations := v)
      case TechStack => this.(techStack := v)
      case StrategistSynthesis => this.(strategistSynthesis := v)
      case CriticReview => this.(criticReview := v)
      case FinalStrategy => this.(finalStrategy := v)
    }
  }

  /** Two states are the same when their inputs and all nine outputs agree. */
  lemma StateExtensionality(s: AnalysisState, t: AnalysisState)
    requires s.startupIdea == t.startupIdea && s.targetMarket == t.targetMarket
    requires forall f :: s.Get(f) == t.Get(f)
    ensures s == t
  {
    assert s.Get(MarketAnalysis) == t.Get(MarketAnalysis) && s.Get(CostPrediction) == t.Get(CostPrediction);
    assert s.Get(BusinessStrategy) == t.Get(BusinessStrategy) && s.Get(Monetization) == t.Get(Monetization);
    assert s.Get(LegalConsiderations) == t.Get(LegalConsiderations) && s.Get(TechStack) == t.Get(TechStack);
    assert s.Get(StrategistSynthesis) == t.Get(StrategistSynthesis) && s.Get(CriticReview) == t.Get(CriticReview);
    assert s.Get(FinalStrategy) == t.Get(FinalStrategy);
  }

  /** The state `run_analysis` and `analyze_startup` start from: the inputs as given, every
      output empty. */
  function InitialState(idea: string, targetMarket: Option<string>): (r: AnalysisState)
    ensures r.startupIdea == idea && r.targetMarket == targetMarket
    ensures forall f :: r.Get(f) == ""
  {
    AnalysisState(idea, targetMarket, "", "", "", "", "", "", "", "", "")
  }

  // ---------------------------------------------------------------------------
  // Stages
  // ---------------------------------------------------------------------------

  /** The nine nodes of the graph. */
  datatype Stage = MarketAnalyst | CostPredictor | BusinessStrategist | MonetizationExpert
                 | LegalAdvisor | TechArchitect | Strategist | Critic | Refiner

  /** The node name used in the graph. */
  function NodeName(s: Stage): string {
    match s
    case MarketAnalyst => "market_analyst"
    case CostPredictor => "cost_predictor"
    case BusinessStrategist => "business_strategist"
    case MonetizationExpert => "monetization"
    case LegalAdvisor => "legal_advisor"
    case TechArchitect => "tech_architect"
    case Strategist => "strategist_synthesis"
    case Critic => "critic_review"
    case Refiner => "final_refinement"
  }

  /** The one key of the update each node returns. */
  function Writes(s: Stage): Field {
    match s
    case MarketAnalyst => MarketAnalysis
    case CostPredictor => CostPrediction
    case BusinessStrategist => BusinessStrategy
    case MonetizationExpert => Monetization
    case LegalAdvisor => LegalConsiderations
    case TechArchitect => TechStack
    case Strategist => StrategistSynthesis
    case Critic => CriticReview
    case Refiner => FinalStrategy
  }

  /** The output fields each node's context is built from (besides the two inputs). */
  function Reads(s: Stage): set<Field> {
    match s
    case Strategist =>
      {MarketAnalysis, CostPrediction, BusinessStrategy, Monetization, LegalConsiderations, TechStack}
    case Critic => {StrategistSynthesis, MarketAnalysis, CostPrediction}
    case Refiner => {StrategistSynthesis, CriticReview}
    case _ => {}
  }

  /** No two nodes write the same field, so each field has exactly one writer. */
  lemma WritesInjective(s: Stage, t: Stage)
    requires s != t
    ensures Writes(s) != Writes(t)
  {
  }

  /** The order the graph runs its nodes in. */
  const StageOrder: seq<Stage> :=
    [MarketAnalyst, CostPredictor, BusinessStrategist, MonetizationExpert, LegalAdvisor, TechArchitect,
     Strategist, Critic, Refiner]

  /** The position in the stage order of the node that writes a field. */
  function WriterIndex(f: Field): (i: nat)
    ensures i < |StageOrder| && Writes(StageOrder[i]) == f
  {
    match f
    case MarketAnalysis => 0
    case CostPrediction => 1
    case BusinessStrategy => 2
    case Monetization => 3
    case LegalConsiderations => 4
    case TechStack => 5
    case StrategistSynthesis => 6
    case CriticReview => 7
    case FinalStrategy => 8
  }

  /** Every field a node reads was written by a node that ran before it. */
  lemma ReadsOnlyEarlier(i: nat, f: Field)
    requires i < |StageOrder| && f in Reads(StageOrder[i])
    ensures WriterIndex(f) < i
  {
  }

  /** Every node of the order writes a different field, so a run writes all nine once each. */
  lemma OrderWritesEachFieldOnce(i: nat, j: nat)
    requires i < j < |StageOrder|
    ensures Writes(StageOrder[i]) != Writes(StageOrder[j])
  {
  }

  // ---------------------------------------------------------------------------
  // Contexts
  // ---------------------------------------------------------------------------

  /** A target market counts only when present and non-empty. */
  predicate HasTargetMarket(targetMarket: Option<string>) {
    targetMarket.Some? && targetMarket.value != ""
  }

  /** `create_user_context`: the idea, then the target market line when there is one. */
  function UserContext(idea: string, targetMarket: Option<string>): (r: string)
    ensures StartsWith(r, "Startup Idea: " + idea)
    ensures HasTargetMarket(targetMarket) ==> EndsWith(r, "\nTarget Market: " + targetMarket.value)
    ensures !HasTargetMarket(targetMarket) ==> r == "Startup Idea: " + idea
  {
    var context := "Startup Idea: " + idea;
    AppendEnds(context, "\nTarget Market: " + targetMarket.GetOr(""));
    assert context + "\nTarget Market: " + targetMarket.GetOr("") == context + ("\nTarget Market: " + targetMarket.GetOr(""));
    if HasTargetMarket(targetMarket) then context + "\nTarget Market: " + targetMarket.value else context
  }

  /** The user context always opens with the idea line; the target market line follows exactly
      when a non-empty target market was given, and then it carries that market verbatim. */
  lemma UserContextShape(idea: string, targetMarket: Option<string>)
    ensures StartsWith(UserContext(idea, targetMarket), "Startup Idea: " + idea)
    ensures |UserContext(idea, targetMarket)| > |"Startup Idea: " + idea| <==> HasTargetMarket(targetMarket)
    ensures HasTargetMarket(targetMarket) ==>
      UserContext(idea, targetMarket)[|"Startup Idea: " + idea|..] == "\nTarget Market: " + targetMarket.value
  {
    var head := "Startup Idea: " + idea;
    if HasTargetMarket(targetMarket) {
      assert UserContext(idea, targetMarket) == head + ("\nTarget Market: " + targetMarket.value);
    }
  }

  /** The fixed lines of the three deliberation contexts, verbatim. */
  const IdeaHeading: string := "\nOriginal Startup Idea: "
  const MarketHeading: string := "\n\n=== MARKET ANALYSIS ===\n"
  const CostHeading: string := "\n\n=== COST PREDICTION ===\n"
  const StrategyHeading: string := "\n\n=== BUSINESS STRATEGY ===\n"
  const MonetizationHeading: string := "\n\n=== MONETIZATION MODELS ===\n"
  const LegalHeading: string := "\n\n=== LEGAL CONSIDERATIONS ===\n"
  const TechHeading: string := "\n\n=== TECHNOLOGY STACK ===\n"
  const PlanHeading: string := "\n\n=== STRATEGIST'S SYNTHESIZED PLAN ===\n"
  const KeyDataHeading: string := "\n\n=== KEY DATA FROM ANALYSES ===\n"
  const CriticMarketLabel: string := "Market Analysis Summary: "
  const CriticCostLabel: string := "...\nCost Estimates: "
  const OriginalPlanHeading: string := "\n=== YOUR ORIGINAL SYNTHESIZED PLAN ===\n"
  const ReviewHeading: string := "\n\n=== CRITIC'S REVIEW ===\n"
  const RefinementRequest: string :=
    "\n\nBased on this feedback, provide a refined final strategy that addresses the valid concerns"
    + " while maintaining strategic coherence.\n"

  /** The critic's bound on each analysis it quotes. */
  const CriticLimit: nat := 1000

  /** The synthesis context: the idea, the target market line (blank when there is none) and the
      six specialist outputs under their headings. */
  function SynthesisText(idea: string, targetMarket: Option<string>, market: string, cost: string,
                         strategy: string, monetization: string, legal: string, tech: string): (r: string)
    ensures StartsWith(r, IdeaHeading + idea)
    ensures EndsWith(r, TechHeading + tech + "\n")
  {
    var marketLine := if HasTargetMarket(targetMarket) then "Target Market: " + targetMarket.value else "";
    var parts := [IdeaHeading, idea, "\n", marketLine, MarketHeading, market, CostHeading, cost, StrategyHeading,
                  strategy, MonetizationHeading, monetization, LegalHeading, legal, TechHeading, tech, "\n"];
    ConcatSplit(parts, 2);
    ConcatSplit(parts, 14);
    assert parts[..2] == [IdeaHeading, idea] && parts[14..] == [TechHeading, tech, "\n"];
    assert Concat(parts[..2]) == IdeaHeading + idea;
    ConcatThree(TechHeading, tech, "\n");
    AppendEnds(Concat(parts[..2]), Concat(parts[2..]));
    AppendEnds(Concat(parts[..14]), Concat(parts[14..]));
    Concat(parts)
  }

  /** The synthesis context's shape with its pieces left abstract: the opening four pieces, then
      six heading-and-output pairs, then the closing line break. */
  lemma SynthesisShape(ih: string, idea: string, nl: string, marketLine: string, mh: string, market: string,
                       ch: string, cost: string, sh: string, strategy: string, moh: string, monetization: string,
                       lh: string, legal: string, th: string, tech: string)
    ensures Concat([ih, idea, nl, marketLine, mh, market, ch, cost, sh, strategy, moh, monetization, lh, legal, th, tech, nl])
      == ih + idea + nl + marketLine + (mh + market) + (ch + cost) + (sh + strategy) + (moh + monetization)
         + (lh + legal) + (th + tech) + nl
  {
    var g0 := [ih, idea, nl, marketLine];
    var g1 := g0 + [mh, market, ch, cost];
    var g2 := g1 + [sh, strategy, moh, monetization];
    var g3 := g2 + [lh, legal, th, tech];
    assert [ih, idea, nl, marketLine, mh, market, ch, cost, sh, strategy, moh, monetization, lh, legal, th, tech, nl] == g3 + [nl];
    ConcatFour(ih, idea, nl, marketLine);
    ConcatPairsAfter(g0, mh, market, ch, cost);
    ConcatPairsAfter(g1, sh, strategy, moh, monetization);
    ConcatPairsAfter(g2, lh, legal, th, tech);
    ConcatAppend(g3, [nl]);
    assert [nl][1..] == [];
  }

  /** The synthesis context in full: the idea, the target market line, then each specialist output
      under its own heading, in the order the nodes run. */
  lemma SynthesisTextLayout(idea: string, targetMarket: Option<string>, market: string, cost: string,
                            strategy: string, monetization: string, legal: string, tech: string)
    ensures SynthesisText(idea, targetMarket, market, cost, strategy, monetization, legal, tech)
      == IdeaHeading + idea + "\n" + (if HasTargetMarket(targetMarket) then "Target Market: " + targetMarket.value else "")
         + (MarketHeading + market) + (CostHeading + cost) + (StrategyHeading + strategy)
         + (MonetizationHeading + monetization) + (LegalHeading + legal) + (TechHeading + tech) + "\n"
  {
    var marketLine := if HasTargetMarket(targetMarket) then "Target Market: " + targetMarket.value else "";
    SynthesisShape(IdeaHeading, idea, "\n", marketLine, MarketHeading, market, CostHeading, cost, StrategyHeading,
                   strategy, MonetizationHeading, monetization, LegalHeading, legal, TechHeading, tech);
  }

  /** The critic context: the idea, the synthesis, then the first 1000 characters of the market
      analysis and of the cost prediction, each followed by a literal "..." whatever its length. */
  function CriticText(idea: string, synthesis: string, market: string, cost: string): (r: string)
    ensures StartsWith(r, IdeaHeading + idea + PlanHeading + synthesis)
    ensures EndsWith(r, CriticCostLabel + Take(cost, CriticLimit) + "...\n")
    ensures EndsWith(r, CriticMarketLabel + Take(market, CriticLimit) + CriticCostLabel + Take(cost, CriticLimit) + "...\n")
  {
    var parts := [IdeaHeading, idea, PlanHeading, synthesis, KeyDataHeading,
                  CriticMarketLabel, Take(market, CriticLimit), CriticCostLabel, Take(cost, CriticLimit), "...\n"];
    ConcatSplit(parts, 4);
    ConcatSplit(parts, 7);
    assert parts[..4] == [IdeaHeading, idea, PlanHeading, synthesis];
    assert parts[7..] == [CriticCostLabel, Take(cost, CriticLimit), "...\n"];
    ConcatFour(IdeaHeading, idea, PlanHeading, synthesis);
    ConcatThree(CriticCostLabel, Take(cost, CriticLimit), "...\n");
    AppendEnds(Concat(parts[..4]), Concat(parts[4..]));
    AppendEnds(Concat(parts[..7]), Concat(parts[7..]));
    ConcatSplit(parts, 5);
    assert parts[5..] == [CriticMarketLabel, Take(market, CriticLimit), CriticCostLabel, Take(cost, CriticLimit), "...\n"];
    ConcatFive(CriticMarketLabel, Take(market, CriticLimit), CriticCostLabel, Take(cost, CriticLimit), "...\n");
    AppendEnds(Concat(parts[..5]), Concat(parts[5..]));
    Concat(parts)
  }

  /** The critic context's shape with its pieces left abstract. */
  lemma CriticShape(ih: string, idea: string, ph: string, synthesis: string, kh: string,
                    ml: string, market: string, cl: string, cost: string, dots: string)
    ensures Concat([ih, idea, ph, synthesis, kh, ml, market, cl, cost, dots])
      == ih + idea + (ph + synthesis) + kh + (ml + market) + (cl + cost + dots)
  {
    var g0 := [ih, idea];
    var g1 := g0 + [ph, synthesis];
    var g2 := g1 + [kh];
    var g3 := g2 + [ml, market];
    assert [ih, idea, ph, synthesis, kh, ml, market, cl, cost, dots] == g3 + [cl, cost, dots];
    ConcatTwo(ih, idea);
    ConcatAppend(g0, [ph, synthesis]);
    ConcatAppend(g1, [kh]);
    ConcatAppend(g2, [ml, market]);
    ConcatAppend(g3, [cl, cost, dots]);
    ConcatTwo(ph, synthesis);
    ConcatTwo(ml, market);
    ConcatThree(cl, cost, dots);
    assert [kh][1..] == [];
  }

  /** The critic context in full: the idea, the plan, then the two bounded excerpts, each closed
      by a literal "...". */
  lemma CriticTextLayout(idea: string, synthesis: string, market: string, cost: string)
    ensures CriticText(idea, synthesis, market, cost)
      == IdeaHeading + idea + (PlanHeading + synthesis) + KeyDataHeading
         + (CriticMarketLabel + Take(market, CriticLimit)) + (CriticCostLabel + Take(cost, CriticLimit) + "...\n")
  {
    CriticShape(IdeaHeading, idea, PlanHeading, synthesis, KeyDataHeading, CriticMarketLabel, Take(market, CriticLimit),
                CriticCostLabel, Take(cost, CriticLimit), "...\n");
  }

  /** The critic sees at most 1000 characters of each analysis: anything past that point in the
      market analysis or the cost prediction never reaches it. */
  lemma CriticSeesBoundedPrefixes(idea: string, synthesis: string, market: string, cost: string,
                                  market': string, cost': string)
    requires Take(market, CriticLimit) == Take(market', CriticLimit) && Take(cost, CriticLimit) == Take(cost', CriticLimit)
    ensures CriticText(idea, synthesis, market, cost) == CriticText(idea, synthesis, market', cost')
  {
  }

  /** The refinement context: the synthesis and the critique under their headings. */
  function RefinementText(synthesis: string, critique: string): (r: string)
    ensures StartsWith(r, OriginalPlanHeading + synthesis + ReviewHeading + critique)
    ensures EndsWith(r, RefinementRequest)
  {
    var parts := [OriginalPlanHeading, synthesis, ReviewHeading, critique, RefinementRequest];
    ConcatSplit(parts, 4);
    assert parts[..4] == [OriginalPlanHeading, synthesis, ReviewHeading, critique];
    assert parts[4..] == [RefinementRequest];
    ConcatFour(OriginalPlanHeading, synthesis, ReviewHeading, critique);
    assert Concat(parts[4..]) == RefinementRequest;
    AppendEnds(Concat(parts[..4]), Concat(parts[4..]));
    Concat(parts)
  }

  /** The human-message text each node sends. */
  function Context(stage: Stage, s: AnalysisState): string {
    match stage
    case Strategist =>
      SynthesisText(s.startupIdea, s.targetMarket, s.marketAnalysis, s.costPrediction, s.businessStrategy,
                    s.monetization, s.legalConsiderations, s.techStack)
    case Critic => CriticText(s.startupIdea, s.strategistSynthesis, s.marketAnalysis, s.costPrediction)
    case Refiner => RefinementText(s.strategistSynthesis, s.criticReview)
    case _ => UserContext(s.startupIdea, s.targetMarket)
  }

  /** A node's context depends on the inputs and on the fields it reads, and on nothing else. */
  lemma ContextReadsOnlyDeclared(stage: Stage, s: AnalysisState, t: AnalysisState)
    requires s.startupIdea == t.startupIdea && s.targetMarket == t.targetMarket
    requires forall f :: f in Reads(stage) ==> s.Get(f) == t.Get(f)
    ensures Context(stage, s) == Context(stage, t)
  {
    match stage
    case Strategist =>
      assert MarketAnalysis in Reads(stage) && CostPrediction in Reads(stage) && BusinessStrategy in Reads(stage);
      assert Monetization in Reads(stage) && LegalConsiderations in Reads(stage) && TechStack in Reads(stage);
      assert s.marketAnalysis == t.marketAnalysis && s.costPrediction == t.costPrediction;
      assert s.businessStrategy == t.businessStrategy && s.monetization == t.monetization;
      assert s.legalConsiderations == t.legalConsiderations && s.techStack == t.techStack;
    case Critic =>
      assert StrategistSynthesis in Reads(stage) && MarketAnalysis in Reads(stage) && CostPrediction in Reads(stage);
      assert s.strategistSynthesis == t.strategistSynthesis;
      assert s.marketAnalysis == t.marketAnalysis && s.costPrediction == t.costPrediction;
    case Refiner =>
      assert StrategistSynthesis in Reads(stage) && CriticReview in Reads(stage);
      assert s.strategistSynthesis == t.strategistSynthesis && s.criticReview == t.criticReview;
    case _ =>
  }

  // ---------------------------------------------------------------------------
  // Graph
  // ---------------------------------------------------------------------------

  /** Where an edge leads: another node, or the end of the run. */
  datatype Target = To(stage: Stage) | End

  datatype Edge = Edge(from: Stage, to: Target)

  /** `build_analysis_graph`: the entry point and the edges, as added. */
  const Entry: Stage := MarketAnalyst
  const AnalysisEdges: seq<Edge> := [
    Edge(MarketAnalyst, To(CostPredictor)),
    Edge(CostPredictor, To(BusinessStrategist)),
    Edge(BusinessStrategist, To(MonetizationExpert)),
    Edge(MonetizationExpert, To(LegalAdvisor)),
    Edge(LegalAdvisor, To(TechArchitect)),
    Edge(TechArchitect, To(Strategist)),
    Edge(Strategist, To(Critic)),
    Edge(Critic, To(Refiner)),
    Edge(Refiner, End)]

  /** The target of the first edge from position `j` on that leaves a node; none ends the run. */
  function SuccessorFrom(edges: seq<Edge>, s: Stage, j: nat): (r: Target)
    requires j <= |edges|
    ensures r != End ==> exists i :: j <= i < |edges| && edges[i] == Edge(s, r)
    ensures (forall i :: j <= i < |edges| ==> edges[i].from != s) ==> r == End
    ensures (exists i :: j <= i < |edges| && edges[i].from == s) ==>
      exists i :: j <= i < |edges| && edges[i] == Edge(s, r) && forall k :: j <= k < i ==> edges[k].from != s
    decreases |edges| - j
  {
    if j == |edges| then End
    else if edges[j].from == s then edges[j].to
    else SuccessorFrom(edges, s, j + 1)
  }

  /** The target of the first edge leaving a node; a node without one ends the run. */
  function Successor(edges: seq<Edge>, s: Stage): (r: Target)
    ensures r != End ==> exists i :: 0 <= i < |edges| && edges[i] == Edge(s, r)
    ensures (forall i :: 0 <= i < |edges| ==> edges[i].from != s) ==> r == End
    ensures (exists i :: 0 <= i < |edges| && edges[i].from == s) ==>
      exists i :: 0 <= i < |edges| && edges[i] == Edge(s, r) && forall k :: 0 <= k < i ==> edges[k].from != s
  {
    SuccessorFrom(edges, s, 0)
  }

  /** The nodes visited from `start` by following edges, for at most `fuel` steps. */
  function Trace(edges: seq<Edge>, start: Stage, fuel: nat): (r: seq<Stage>)
    ensures |r| <= fuel
    decreases fuel
  {
    if fuel == 0 then []
    else
      match Successor(edges, start)
      case End => [start]
      case To(next) => [start] + Trace(edges, next, fuel - 1)
  }

  /** In the shown graph every node has exactly one successor, the next node in the order, and
      the last node leads to the end. */
  lemma GraphIsTheChain(i: nat)
    requires i < |StageOrder|
    ensures Successor(AnalysisEdges, StageOrder[i]) == if i + 1 < |StageOrder| then To(StageOrder[i + 1]) else End
  {
    var e := AnalysisEdges;
    assert e[i].from == StageOrder[i];
    assert e[i].to == if i + 1 < |StageOrder| then To(StageOrder[i + 1]) else End;
    assert forall k :: 0 <= k < i ==> e[k].from != StageOrder[i];
  }

  /** Following the graph from the entry point visits the nine nodes in the stage order and then
      ends, with no branching. */
  lemma {:induction false} GraphRunsStageOrder()
    ensures Trace(AnalysisEdges, Entry, |StageOrder|) == StageOrder
  {
    TraceFollowsOrder(|StageOrder| - 1);
    assert StageOrder[|StageOrder| - 1..] == [Refiner];
    assert StageOrder[0..] == StageOrder;
  }

  lemma {:induction false} TraceFollowsOrder(k: nat)
    requires k < |StageOrder|
    ensures Trace(AnalysisEdges, StageOrder[|StageOrder| - 1 - k], k + 1) == StageOrder[|StageOrder| - 1 - k..]
  {
    var e, o := AnalysisEdges, StageOrder;
    forall i | 0 <= i < |o|
      ensures Successor(e, o[i]) == if i + 1 < |o| then To(o[i + 1]) else End
    {
      GraphIsTheChain(i);
    }
    assert Chains(e, o);
    TraceOfChain(e, o, k);
  }

  /** Every node of `order` leads to the next one, and the last leads to the end. */
  predicate Chains(edges: seq<Edge>, order: seq<Stage>)
  {
    forall i :: 0 <= i < |order| ==> Successor(edges, order[i]) == if i + 1 < |order| then To(order[i + 1]) else End
  }

  /** In any graph whose edges chain the nodes of `order` one after the other, following the
      edges from a node visits the rest of the order. */
  lemma {:induction false} TraceOfChain(edges: seq<Edge>, order: seq<Stage>, k: nat)
    requires k < |order|
    requires Chains(edges, order)
    ensures Trace(edges, order[|order| - 1 - k], k + 1) == order[|order| - 1 - k..]
  {
    var i := |order| - 1 - k;
    assert Successor(edges, order[i]) == if i + 1 < |order| then To(order[i + 1]) else End;
    if k > 0 {
      TraceOfChain(edges, order, k - 1);
      assert order[i..] == [order[i]] + order[i + 1..];
    }
  }

  // ---------------------------------------------------------------------------
  // Nodes and the run
  // ---------------------------------------------------------------------------

  /** The language model: node (standing for its system prompt) and context to the response text,
      or the message of what the call raised. */
  type Generator = (Stage, string) -> Result<string, string>

  /** One node: obtain the model (which may raise), send the node's context, and return the
      response as the value of the node's own field. */
  function Node(llm: Result<Generator, string>, stage: Stage, s: AnalysisState): (r: Result<string, string>)
    ensures llm.Failure? ==> r == Failure(llm.error)
    ensures llm.Success? ==> r == llm.value(stage, Context(stage, s))
  {
    var generate :- llm;
    generate(stage, Context(stage, s))
  }

  /** One step of the run: the node's update merged into the state. */
  function Step(llm: Result<Generator, string>, stage: Stage, s: AnalysisState): (r: Result<AnalysisState, string>)
    ensures r.Success? <==> Node(llm, stage, s).Success?
    ensures r.Failure? ==> r.error == Node(llm, stage, s).error
    ensures r.Success? ==> r.value == s.Set(Writes(stage), Node(llm, stage, s).value)
  {
    var v :- Node(llm, stage, s);
    Success(s.Set(Writes(stage), v))
  }

  /** Whether some stage from position `i` on writes a field. */
  predicate WrittenFrom(stages: seq<Stage>, i: nat, f: Field) {
    exists j :: i <= j < |stages| && Writes(stages[j]) == f
  }

  /** Running the stages from position `i` on, in order; the first failure aborts the run with its
      message and no state. A completed run keeps the inputs. */
  function RunFrom(llm: Result<Generator, string>, stages: seq<Stage>, i: nat, s: AnalysisState): (r: Result<AnalysisState, string>)
    requires i <= |stages|
    ensures r.Success? ==> r.value.startupIdea == s.startupIdea && r.value.targetMarket == s.targetMarket
    decreases |stages| - i
  {
    if i == |stages| then Success(s)
    else
      var next :- Step(llm, stages[i], s);
      RunFrom(llm, stages, i + 1, next)
  }

  /** The graph's invocation: all the stages from the first. */
  function Run(llm: Result<Generator, string>, stages: seq<Stage>, s: AnalysisState): Result<AnalysisState, string> {
    RunFrom(llm, stages, 0, s)
  }

  /** A completed run leaves every field that no remaining stage writes as it was. */
  lemma {:induction false} RunFrame(llm: Result<Generator, string>, stages: seq<Stage>, i: nat, s: AnalysisState, f: Field)
    requires i <= |stages|
    requires RunFrom(llm, stages, i, s).Success? && !WrittenFrom(stages, i, f)
    ensures RunFrom(llm, stages, i, s).value.Get(f) == s.Get(f)
    decreases |stages| - i
  {
    if i < |stages| {
      var next := Step(llm, stages[i], s).value;
      assert Writes(stages[i]) != f;
      assert !WrittenFrom(stages, i + 1, f);
      RunFrame(llm, stages, i + 1, next, f);
    }
  }

  /** Without a model every non-empty run fails with the model's error before any node's
      update is applied. */
  lemma NoModelAbortsRun(e: string, stages: seq<Stage>, s: AnalysisState)
    requires |stages| > 0
    ensures Run(Failure(e), stages, s) == Failure(e)
  {
  }

  /** A node whose call succeeds hands the state with its field set to the rest of the run. */
  lemma RunStepSucceeds(generate: Generator, stages: seq<Stage>, i: nat, s: AnalysisState, v: string)
    requires i < |stages| && generate(stages[i], Context(stages[i], s)) == Success(v)
    ensures RunFrom(Success(generate), stages, i, s) == RunFrom(Success(generate), stages, i + 1, s.Set(Writes(stages[i]), v))
  {
  }

  /** A node whose call fails ends the run with that failure, whatever comes after it. */
  lemma RunStepFails(generate: Generator, stages: seq<Stage>, i: nat, s: AnalysisState)
    requires i < |stages| && generate(stages[i], Context(stages[i], s)).Failure?
    ensures RunFrom(Success(generate), stages, i, s) == Failure(generate(stages[i], Context(stages[i], s)).error)
  {
  }

  /** The positions of the stage order, one by one. */
  lemma StageOrderEntries()
    ensures |StageOrder| == 9
    ensures StageOrder[0] == MarketAnalyst && StageOrder[1] == CostPredictor && StageOrder[2] == BusinessStrategist
    ensures StageOrder[3] == MonetizationExpert && StageOrder[4] == LegalAdvisor && StageOrder[5] == TechArchitect
    ensures StageOrder[6] == Strategist && StageOrder[7] == Critic && StageOrder[8] == Refiner
  {
  }

  /** The full pipeline written as the data flow it implements, one phase per function: every
      specialist sees only the user context, the strategist the six specialist outputs, the critic
      the synthesis and the first two analyses, the refinement the synthesis and the critique. A
      failing call ends the flow with its error. */
  function DataFlow(generate: Generator, idea: string, targetMarket: Option<string>): Result<AnalysisState, string>
  {
    var market :- generate(MarketAnalyst, UserContext(idea, targetMarket));
    var cost :- generate(CostPredictor, UserContext(idea, targetMarket));
    FromStrategy(generate, idea, targetMarket, market, cost)
  }

  /** The data flow from the business strategist on, given the first two analyses. */
  function FromStrategy(generate: Generator, idea: string, targetMarket: Option<string>, market: string, cost: string): Result<AnalysisState, string>
  {
    var strategy :- generate(BusinessStrategist, UserContext(idea, targetMarket));
    var monetization :- generate(MonetizationExpert, UserContext(idea, targetMarket));
    FromLegal(generate, idea, targetMarket, market, cost, strategy, monetization)
  }

  /** The data flow from the legal advisor on, given the first four analyses. */
  function FromLegal(generate: Generator, idea: string, targetMarket: Option<string>, market: string, cost: string, strategy: string, monetization: string): Result<AnalysisState, string>
  {
    var legal :- generate(LegalAdvisor, UserContext(idea, targetMarket));
    var tech :- generate(TechArchitect, UserContext(idea, targetMarket));
    Deliberation(generate, idea, targetMarket, market, cost, strategy, monetization, legal, tech)
  }

  /** The data flow from the strategist on, given the six specialist outputs. */
  function Deliberation(generate: Generator, idea: string, targetMarket: Option<string>, market: string, cost: string, strategy: string, monetization: string, legal: string, tech: string): Result<AnalysisState, string>
  {
    var synthesis :- generate(Strategist, SynthesisText(idea, targetMarket, market, cost, strategy, monetization, legal, tech));
    Review(generate, idea, targetMarket, market, cost, strategy, monetization, legal, tech, synthesis)
  }

  /** The review: the critic and the refinement, given the synthesis. */
  function Review(generate: Generator, idea: string, targetMarket: Option<string>, market: string, cost: string, strategy: string, monetization: string, legal: string, tech: string, synthesis: string): Result<AnalysisState, string>
  {
    var critique :- generate(Critic, CriticText(idea, synthesis, market, cost));
    var final :- generate(Refiner, RefinementText(synthesis, critique));
    Success(AnalysisState(idea, targetMarket, market, cost, strategy, monetization, legal, tech, synthesis, critique, final))
  }

  /** The critic and the refinement, run on a state holding the synthesis, compute the review. */
  lemma {:induction false} ReviewRun(generate: Generator, idea: string, targetMarket: Option<string>, market: string, cost: string, strategy: string, monetization: string, legal: string, tech: string, synthesis: string)
    ensures RunFrom(Success(generate), StageOrder, 7, AnalysisState(idea, targetMarket, market, cost, strategy, monetization, legal, tech, synthesis, "", ""))
         == Review(generate, idea, targetMarket, market, cost, strategy, monetization, legal, tech, synthesis)
  {
    StageOrderEntries();
    var r7 := generate(Critic, CriticText(idea, synthesis, market, cost));
    if r7.Failure? {
      RunStepFails(generate, StageOrder, 7, AnalysisState(idea, targetMarket, market, cost, strategy, monetization, legal, tech, synthesis, "", ""));
      return;
    }
    var critique := r7.value;
    RunStepSucceeds(generate, StageOrder, 7, AnalysisState(idea, targetMarket, market, cost, strategy, monetization, legal, tech, synthesis, "", ""), critique);
    assert AnalysisState(idea, targetMarket, market, cost, strategy, monetization, legal, tech, synthesis, "", "").Set(CriticReview, critique) == AnalysisState(idea, targetMarket, market, cost, strategy, monetization, legal, tech, synthesis, critique, "");
    var r8 := generate(Refiner, RefinementText(synthesis, critique));
    if r8.Failure? {
      RunStepFails(generate, StageOrder, 8, AnalysisState(idea, targetMarket, market, cost, strategy, monetization, legal, tech, synthesis, critique, ""));
      return;
    }
    var final := r8.value;
    RunStepSucceeds(generate, StageOrder, 8, AnalysisState(idea, targetMarket, market, cost, strategy, monetization, legal, tech, synthesis, critique, ""), final);
    assert AnalysisState(idea, targetMarket, market, cost, strategy, monetization, legal, tech, synthesis, critique, "").Set(FinalStrategy, final) == AnalysisState(idea, targetMarket, market, cost, strategy, monetization, legal, tech, synthesis, critique, final);
  }

  /** The last three nodes, run on a state holding the six specialist outputs, compute the deliberation. */
  lemma {:induction false} DeliberationRun(generate: Generator, idea: string, targetMarket: Option<string>, market: string, cost: string, strategy: string, monetization: string, legal: string, tech: string)
    ensures RunFrom(Success(generate), StageOrder, 6, AnalysisState(idea, targetMarket, market, cost, strategy, monetization, legal, tech, "", "", ""))
         == Deliberation(generate, idea, targetMarket, market, cost, strategy, monetization, legal, tech)
  {
    StageOrderEntries();
    var r6 := generate(Strategist, SynthesisText(idea, targetMarket, market, cost, strategy, monetization, legal, tech));
    if r6.Failure? {
      RunStepFails(generate, StageOrder, 6, AnalysisState(idea, targetMarket, market, cost, strategy, monetization, legal, tech, "", "", ""));
      return;
    }
    var synthesis := r6.value;
    RunStepSucceeds(generate, StageOrder, 6, AnalysisState(idea, targetMarket, market, cost, strategy, monetization, legal, tech, "", "", ""), synthesis);
    assert AnalysisState(idea, targetMarket, market, cost, strategy, monetization, legal, tech, "", "", "").Set(StrategistSynthesis, synthesis) == AnalysisState(idea, targetMarket, market, cost, strategy, monetization, legal, tech, synthesis, "", "");
    ReviewRun(generate, idea, targetMarket, market, cost, strategy, monetization, legal, tech, synthesis);
  }

  /** Nodes five to nine, run on a state holding the first four analyses, compute the rest of the data flow. */
  lemma {:induction false} FromLegalRun(generate: Generator, idea: string, targetMarket: Option<string>, market: string, cost: string, strategy: string, monetization: string)
    ensures RunFrom(Success(generate), StageOrder, 4, AnalysisState(idea, targetMarket, market, cost, strategy, monetization, "", "", "", "", ""))
         == FromLegal(generate, idea, targetMarket, market, cost, strategy, monetization)
  {
    StageOrderEntries();
    var r4 := generate(LegalAdvisor, UserContext(idea, targetMarket));
    if r4.Failure? {
      RunStepFails(generate, StageOrder, 4, AnalysisState(idea, targetMarket, market, cost, strategy, monetization, "", "", "", "", ""));
      return;
    }
    var legal := r4.value;
    RunStepSucceeds(generate, StageOrder, 4, AnalysisState(idea, targetMarket, market, cost, strategy, monetization, "", "", "", "", ""), legal);
    assert AnalysisState(idea, targetMarket, market, cost, strategy, monetization, "", "", "", "", "").Set(LegalConsiderations, legal) == AnalysisState(idea, targetMarket, market, cost, strategy, monetization, legal, "", "", "", "");
    var r5 := generate(TechArchitect, UserContext(idea, targetMarket));
    if r5.Failure? {
      RunStepFails(generate, StageOrder, 5, AnalysisState(idea, targetMarket, market, cost, strategy, monetization, legal, "", "", "", ""));
      return;
    }
    var tech := r5.value;
    RunStepSucceeds(generate, StageOrder, 5, AnalysisState(idea, targetMarket, market, cost, strategy, monetization, legal, "", "", "", ""), tech);
    assert AnalysisState(idea, targetMarket, market, cost, strategy, monetization, legal, "", "", "", "").Set(TechStack, tech) == AnalysisState(idea, targetMarket, market, cost, strategy, monetization, legal, tech, "", "", "");
    DeliberationRun(generate, idea, targetMarket, market, cost, strategy, monetization, legal, tech);
  }

  /** Nodes three to nine, run on a state holding the first two analyses, compute the rest of the data flow. */
  lemma {:induction false} FromStrategyRun(generate: Generator, idea: string, targetMarket: Option<string>, market: string, cost: string)
    ensures RunFrom(Success(generate), StageOrder, 2, AnalysisState(idea, targetMarket, market, cost, "", "", "", "", "", "", ""))
         == FromStrategy(generate, idea, targetMarket, market, cost)
  {
    StageOrderEntries();
    var r2 := generate(BusinessStrategist, UserContext(idea, targetMarket));
    if r2.Failure? {
      RunStepFails(generate, StageOrder, 2, AnalysisState(idea, targetMarket, market, cost, "", "", "", "", "", "", ""));
      return;
    }
    var strategy := r2.value;
    RunStepSucceeds(generate, StageOrder, 2, AnalysisState(idea, targetMarket, market, cost, "", "", "", "", "", "", ""), strategy);
    assert AnalysisState(idea, targetMarket, market, cost, "", "", "", "", "", "", "").Set(BusinessStrategy, strategy) == AnalysisState(idea, targetMarket, market, cost, strategy, "", "", "", "", "", "");
    var r3 := generate(MonetizationExpert, UserContext(idea, targetMarket));
    if r3.Failure? {
      RunStepFails(generate, StageOrder, 3, AnalysisState(idea, targetMarket, market, cost, strategy, "", "", "", "", "", ""));
      return;
    }
    var monetization := r3.value;
    RunStepSucceeds(generate, StageOrder, 3, AnalysisState(idea, targetMarket, market, cost, strategy, "", "", "", "", "", ""), monetization);
    assert AnalysisState(idea, targetMarket, market, cost, strategy, "", "", "", "", "", "").Set(Monetization, monetization) == AnalysisState(idea, targetMarket, market, cost, strategy, monetization, "", "", "", "", "");
    FromLegalRun(generate, idea, targetMarket, market, cost, strategy, monetization);
  }

  /** Running the nine nodes in the stage order from the initial state computes exactly the
      data flow: the same outputs on success, the same first error on failure. */
  lemma {:induction false} RunIsDataFlow(generate: Generator, idea: string, targetMarket: Option<string>)
    ensures Run(Success(generate), StageOrder, InitialState(idea, targetMarket)) == DataFlow(generate, idea, targetMarket)
  {
    StageOrderEntries();
    var r0 := generate(MarketAnalyst, UserContext(idea, targetMarket));
    if r0.Failure? {
      RunStepFails(generate, StageOrder, 0, AnalysisState(idea, targetMarket, "", "", "", "", "", "", "", "", ""));
      return;
    }
    var market := r0.value;
    RunStepSucceeds(generate, StageOrder, 0, AnalysisState(idea, targetMarket, "", "", "", "", "", "", "", "", ""), market);
    assert AnalysisState(idea, targetMarket, "", "", "", "", "", "", "", "", "").Set(MarketAnalysis, market) == AnalysisState(idea, targetMarket, market, "", "", "", "", "", "", "", "");
    var r1 := generate(CostPredictor, UserContext(idea, targetMarket));
    if r1.Failure? {
      RunStepFails(generate, StageOrder, 1, AnalysisState(idea, targetMarket, market, "", "", "", "", "", "", "", ""));
      return;
    }
    var cost := r1.value;
    RunStepSucceeds(generate, StageOrder, 1, AnalysisState(idea, targetMarket, market, "", "", "", "", "", "", "", ""), cost);
    assert AnalysisState(idea, targetMarket, market, "", "", "", "", "", "", "", "").Set(CostPrediction, cost) == AnalysisState(idea, targetMarket, market, cost, "", "", "", "", "", "", "");
    FromStrategyRun(generate, idea, targetMarket, market, cost);
  }

  // ---------------------------------------------------------------------------
  // Projection to the response
  // ---------------------------------------------------------------------------

  /** The seven analysis values a caller receives. */
  datatype AnalysisResult = AnalysisResult(
    marketAnalysis: string,
    costPrediction: string,
    businessStrategy: string,
    monetization: string,
    legalConsiderations: string,
    techStack: string,
    strategistCritique: string)

  /** The final projection: the six specialist outputs, and the refined strategy reported as the
      strategist's critique. */
  function ToResult(s: AnalysisState): (r: AnalysisResult)
    ensures r.strategistCritique == s.Get(FinalStrategy)
    ensures r.marketAnalysis == s.Get(MarketAnalysis) && r.costPrediction == s.Get(CostPrediction)
    ensures r.businessStrategy == s.Get(BusinessStrategy) && r.monetization == s.Get(Monetization)
    ensures r.legalConsiderations == s.Get(LegalConsiderations) && r.techStack == s.Get(TechStack)
  {
    AnalysisResult(s.marketAnalysis, s.costPrediction, s.businessStrategy, s.monetization,
                   s.legalConsiderations, s.techStack, s.finalStrategy)
  }

  /** The synthesis and the critic's review are internal: changing them never changes the
      response. */
  lemma ResultHidesIntermediates(s: AnalysisState, synthesis: string, critique: string)
    ensures ToResult(s.Set(StrategistSynthesis, synthesis).Set(CriticReview, critique)) == ToResult(s)
  {
  }
}

=== FILE: projects.dfy ===
/** The project views: an owner-scoped store of project documents keyed by their ObjectId, with
    listing, creation, retrieval, update and deletion. Every view first identifies the caller from
    the bearer token; the clock and the ids the database assigns are parameters. */
module Projects {
  import opened Basics
  import opened Jwt

  // ---------------------------------------------------------------------------
  // ObjectIds
  // ---------------------------------------------------------------------------

  predicate IsHexDigit(c: char) {
    '0' <= c <= '9' || 'a' <= c <= 'f' || 'A' <= c <= 'F'
  }

  /** The text of an ObjectId as `str()` renders it: 24 lower-case hexadecimal digits. */
  predicate IsCanonicalId(s: string) {
    |s| == 24 && forall i :: 0 <= i < |s| ==> IsHexDigit(s[i]) && !IsUpper(s[i])
  }

  /** `ObjectId(project_id)`: 24 hexadecimal digits in either case name an id, anything else raises
      `InvalidId`. The id is returned in its canonical spelling. */
  function ParseObjectId(raw: string): (r: Option<string>)
    ensures r.Some? <==> |raw| == 24 && forall i :: 0 <= i < |raw| ==> IsHexDigit(raw[i])
    ensures r.Some? ==> IsCanonicalId(r.value) && r.value == Lower(raw)
  {
    if |raw| == 24 && forall i :: 0 <= i < |raw| ==> IsHexDigit(raw[i]) then Some(Lower(raw)) else None
  }

  /** The id a response reports parses back to the same id. */
  lemma ObjectIdRoundTrip(id: string)
    requires IsCanonicalId(id)
    ensures ParseObjectId(id) == Some(id)
  {
    assert Lower(id) == id;
  }

  // ---------------------------------------------------------------------------
  // Documents
  // ---------------------------------------------------------------------------

  /** A field value: JSON null, a string, or any other JSON value a client sent. */
  datatype Value = Null | Text(text: string) | Other(json: string)

  const StartupIdea: string := "startup_idea"
  const TargetMarket: string := "target_market"
  const Status: string := "status"
  const MarketAnalysis: string := "market_analysis"
  const CostPrediction: string := "cost_prediction"
  const BusinessStrategy: string := "business_strategy"
  const Monetization: string := "monetization"
  const LegalConsiderations: string := "legal_considerations"
  const TechStack: string := "tech_stack"
  const StrategistCritique: string := "strategist_critique"

  /** The seven analysis results a project stores. */
  const AnalysisFields: seq<string> :=
    [MarketAnalysis, CostPrediction, BusinessStrategy, Monetization, LegalConsiderations, TechStack, StrategistCritique]

  /** The fields an update may set, which are also the content fields a response reports. */
  const AllowedFields: seq<string> := [StartupIdea, TargetMarket, Status] + AnalysisFields

  const PendingStatus: string := "pending"

  /** A project document: its owner, its content fields, and its two timestamps. */
  datatype Project = Project(userId: string, fields: map<string, Value>, createdAt: int, updatedAt: int)

  /** The `projects` collection, by id. */
  type Store = map<string, Project>

  /** Every id is canonical and no document holds a field outside the allowlist. */
  predicate WellFormed(store: Store) {
    forall id :: id in store ==> IsCanonicalId(id) && (forall k :: k in store[id].fields ==> k in AllowedFields)
  }

  /** A project as a response shows it. */
  datatype ProjectView = ProjectView(id: string, userId: string, content: map<string, Value>, createdAt: int, updatedAt: int)

  /** `project.get(key)`, with the one default `serialize_project` gives: a missing status reads
      as pending, any other missing field as null. */
  function FieldOr(p: Project, key: string): (v: Value)
    ensures key in p.fields ==> v == p.fields[key]
    ensures key !in p.fields && key == Status ==> v == Text(PendingStatus)
    ensures key !in p.fields && key != Status ==> v == Null
  {
    if key in p.fields then p.fields[key] else if key == Status then Text(PendingStatus) else Null
  }

  /** `serialize_project`: the id in its text form, the owner, the ten content fields and the
      timestamps. */
  function Serialize(id: string, p: Project): (v: ProjectView)
    ensures v.id == id && v.userId == p.userId
    ensures v.createdAt == p.createdAt && v.updatedAt == p.updatedAt
    ensures forall k :: k in v.content <==> k in AllowedFields
    ensures forall k :: k in v.content ==> v.content[k] == FieldOr(p, k)
  {
    ProjectView(id, p.userId, map k | k in AllowedFields :: FieldOr(p, k), p.createdAt, p.updatedAt)
  }

  // ---------------------------------------------------------------------------
  // Responses and the caller
  // ---------------------------------------------------------------------------

  datatype ProjectReply =
    | Listed(projects: seq<ProjectView>)
    | Created(project: ProjectView)
    | Found(project: ProjectView)
    | Deleted
    | Error(status: nat, error: string)
  {
    function StatusCode(): nat {
      match this
      case Listed(_) => 200
      case Created(_) => 201
      case Found(_) => 200
      case Deleted => 200
      case Error(code, _) => code
    }
  }

  const Unauthorized: ProjectReply := Error(401, "Unauthorized")
  const IdeaRequired: ProjectReply := Error(400, "Startup idea is required")
  const InvalidProjectId: ProjectReply := Error(400, "Invalid project ID")
  const NotFound: ProjectReply := Error(404, "Project not found")

  /** The `user_id` claim of the caller's token, when the request carries one that verifies. */
  function CallerId(authorization: Option<string>, verify: Verifier): (r: Option<string>)
    ensures r.None? <==> UserFromRequest(authorization, verify).None?
    ensures r.Some? ==> r.value == UserFromRequest(authorization, verify).value.userId
  {
    match UserFromRequest(authorization, verify)
    case None => None
    case Some(claims) => Some(claims.userId)
  }

  // ---------------------------------------------------------------------------
  // `ProjectListCreateView`
  // ---------------------------------------------------------------------------

  predicate InStore(store: Store, order: seq<string>) {
    forall i :: 0 <= i < |order| ==> order[i] in store
  }

  predicate Distinct(order: seq<string>) {
    forall i, j :: 0 <= i < j < |order| ==> order[i] != order[j]
  }

  /** Newest first. */
  predicate NewestFirst(store: Store, order: seq<string>)
    requires InStore(store, order)
  {
    forall i, j :: 0 <= i < j < |order| ==> store[order[i]].createdAt >= store[order[j]].createdAt
  }

  /** A project no older than any in a newest-first order may go in front of it. */
  lemma ConsNewestFirst(store: Store, head: string, order: seq<string>)
    requires head in store && InStore(store, order) && NewestFirst(store, order)
    requires forall x :: x in order ==> store[x].createdAt <= store[head].createdAt
    ensures InStore(store, [head] + order) && NewestFirst(store, [head] + order)
  {
    var r := [head] + order;
    forall i, j | 0 <= i < j < |r|
      ensures store[r[i]].createdAt >= store[r[j]].createdAt
    {
      assert r[j] == order[j - 1] && order[j - 1] in order;
      if i > 0 {
        assert r[i] == order[i - 1];
      }
    }
  }

  lemma ConsDistinct(head: string, order: seq<string>)
    requires Distinct(order) && head !in order
    ensures Distinct([head] + order)
  {
    var r := [head] + order;
    forall i, j | 0 <= i < j < |r|
      ensures r[i] != r[j]
    {
      assert r[j] == order[j - 1];
      if i > 0 {
        assert r[i] == order[i - 1];
      }
    }
  }

  /** `id` placed into an order of projects before the first one it is at least as new as. */
  function InsertNewestFirst(store: Store, order: seq<string>, id: string): (r: seq<string>)
    requires InStore(store, order) && id in store
    ensures |r| == |order| + 1 && InStore(store, r)
    ensures forall x :: x in r <==> x in order || x == id
  {
    if |order| == 0 || store[id].createdAt >= store[order[0]].createdAt then [id] + order
    else [order[0]] + InsertNewestFirst(store, order[1..], id)
  }

  /** Insertion keeps an order newest first. */
  lemma {:induction false} InsertKeepsNewestFirst(store: Store, order: seq<string>, id: string)
    requires InStore(store, order) && NewestFirst(store, order) && id in store
    ensures NewestFirst(store, InsertNewestFirst(store, order, id))
  {
    if |order| == 0 || store[id].createdAt >= store[order[0]].createdAt {
      assert forall x :: x in order ==> store[x].createdAt <= store[order[0]].createdAt;
      ConsNewestFirst(store, id, order);
    } else {
      var tail := order[1..];
      assert order == [order[0]] + tail;
      InsertKeepsNewestFirst(store, tail, id);
      assert forall x :: x in tail ==> x in order;
      ConsNewestFirst(store, order[0], InsertNewestFirst(store, tail, id));
    }
  }

  /** Inserting an id not yet present keeps the ids distinct. */
  lemma {:induction false} InsertKeepsDistinct(store: Store, order: seq<string>, id: string)
    requires InStore(store, order) && Distinct(order) && id in store && id !in order
    ensures Distinct(InsertNewestFirst(store, order, id))
  {
    if |order| == 0 || store[id].createdAt >= store[order[0]].createdAt {
      ConsDistinct(id, order);
    } else {
      var tail := order[1..];
      assert order == [order[0]] + tail;
      InsertKeepsDistinct(store, tail, id);
      ConsDistinct(order[0], InsertNewestFirst(store, tail, id));
    }
  }

  /** The ids of the projects `owner` owns. */
  function OwnedBy(store: Store, owner: string): set<string> {
    set id | id in store && store[id].userId == owner
  }

  /** The given projects, each once, newest first. */
  method SortNewestFirst(store: Store, ids: set<string>) returns (order: seq<string>)
    requires forall x :: x in ids ==> x in store
    ensures InStore(store, order) && NewestFirst(store, order) && Distinct(order)
    ensures forall x :: x in order <==> x in ids
  {
    var remaining := ids;
    order := [];
    while remaining != {}
      invariant InStore(store, order) && NewestFirst(store, order) && Distinct(order)
      invariant forall x :: x in remaining ==> x in ids && x !in order
      invariant forall x :: x in ids <==> x in remaining || x in order
      decreases |remaining|
    {
      var id :| id in remaining;
      InsertKeepsNewestFirst(store, order, id);
      InsertKeepsDistinct(store, order, id);
      order := InsertNewestFirst(store, order, id);
      remaining := remaining - {id};
    }
  }

  /** `ProjectListCreateView.get`: 401 without a caller; otherwise every project the caller owns
      and no other, each once, newest first. Projects created in the same instant may come in
      either order. */
  method List(store: Store, authorization: Option<string>, verify: Verifier) returns (reply: ProjectReply)
    ensures CallerId(authorization, verify).None? ==> reply == Unauthorized
    ensures CallerId(authorization, verify).Some? ==> reply.Listed?
    ensures reply.Listed? ==>
      var owner := CallerId(authorization, verify).value;
      var ps := reply.projects;
      && (forall i :: 0 <= i < |ps| ==> ps[i].id in store && ps[i] == Serialize(ps[i].id, store[ps[i].id]))
      && (forall i :: 0 <= i < |ps| ==> ps[i].userId == owner)
      && (forall id :: id in store && store[id].userId == owner ==> exists i :: 0 <= i < |ps| && ps[i].id == id)
      && (forall i, j :: 0 <= i < j < |ps| ==> ps[i].id != ps[j].id)
      && (forall i, j :: 0 <= i < j < |ps| ==> ps[i].createdAt >= ps[j].createdAt)
  {
    var caller := CallerId(authorization, verify);
    if caller.None? {
      return Unauthorized;
    }
    var owner := caller.value;
    var order := SortNewestFirst(store, OwnedBy(store, owner));
    var views := seq(|order|, i requires 0 <= i < |order| => Serialize(order[i], store[order[i]]));
    assert forall i :: 0 <= i < |order| ==> order[i] in order && views[i].id == order[i];
    forall id | id in store && store[id].userId == owner
      ensures exists i :: 0 <= i < |views| && views[i].id == id
    {
      assert id in OwnedBy(store, owner);
      var i :| 0 <= i < |order| && order[i] == id;
      assert views[i].id == id;
    }
    reply := Listed(views);
  }

  /** The `startup_idea` and `target_market` fields of a create request; absent reads as "". */
  datatype ProjectForm = ProjectForm(startupIdea: Option<string>, targetMarket: Option<string>)

  /** The value a new project holds in field `key`: the stripped idea, the stripped market or
      null when nothing is left of it, pending, and null for every analysis result. */
  function InitialValue(key: string, idea: string, market: string): Value {
    if key == StartupIdea then Text(idea)
    else if key == TargetMarket then (if market == "" then Null else Text(market))
    else if key == Status then Text(PendingStatus)
    else Null
  }

  /** The document a create request inserts. */
  function NewProject(owner: string, form: ProjectForm, now: int): (p: Project)
    ensures p.userId == owner && p.createdAt == now && p.updatedAt == now
    ensures forall k :: k in p.fields <==> k in AllowedFields
    ensures p.fields[StartupIdea] == Text(Strip(form.startupIdea.GetOr("")))
    ensures p.fields[TargetMarket] == if Strip(form.targetMarket.GetOr("")) == "" then Null
                                      else Text(Strip(form.targetMarket.GetOr("")))
    ensures p.fields[Status] == Text(PendingStatus)
    ensures forall i :: 0 <= i < |AnalysisFields| ==> p.fields[AnalysisFields[i]] == Null
  {
    var idea := Strip(form.startupIdea.GetOr(""));
    var market := Strip(form.targetMarket.GetOr(""));
    AnalysisFieldsAreNotInputs();
    Project(owner, map k | k in AllowedFields :: InitialValue(k, idea, market), now, now)
  }

  /** No analysis result shares its name with one of the three input fields. */
  lemma AnalysisFieldsAreNotInputs()
    ensures forall i :: 0 <= i < |AnalysisFields| ==>
      AnalysisFields[i] != StartupIdea && AnalysisFields[i] != TargetMarket && AnalysisFields[i] != Status
  {
    forall i | 0 <= i < |AnalysisFields|
      ensures AnalysisFields[i] != StartupIdea && AnalysisFields[i] != TargetMarket && AnalysisFields[i] != Status
    {
      assert AnalysisFields[i][0] != 's' || AnalysisFields[i][1] != 't' || |AnalysisFields[i]| == 19;
    }
  }

  /** `ProjectListCreateView.post`: 401 without a caller, 400 when the idea is blank, and
      otherwise the new document stored under the id the database assigns, the caller as owner,
      and returned with 201. Nothing is stored on an error. */
  function Create(store: Store, authorization: Option<string>, verify: Verifier, form: ProjectForm,
                  newId: string, now: int): (r: (ProjectReply, Store))
    ensures CallerId(authorization, verify).None? ==> r == (Unauthorized, store)
    ensures CallerId(authorization, verify).Some? && Strip(form.startupIdea.GetOr("")) == "" ==> r == (IdeaRequired, store)
    ensures r.0.Created? <==> CallerId(authorization, verify).Some? && Strip(form.startupIdea.GetOr("")) != ""
    ensures r.0.Created? ==>
      var doc := NewProject(CallerId(authorization, verify).value, form, now);
      r.1 == store[newId := doc] && r.0.project == Serialize(newId, doc)
  {
    match CallerId(authorization, verify)
    case None => (Unauthorized, store)
    case Some(owner) =>
      if Strip(form.startupIdea.GetOr("")) == "" then (IdeaRequired, store)
      else
        var doc := NewProject(owner, form, now);
        (Created(Serialize(newId, doc)), store[newId := doc])
  }

  // ---------------------------------------------------------------------------
  // `ProjectDetailView`
  // ---------------------------------------------------------------------------

  /** `get_project_or_404`: the id of the caller's project, 400 for text that is no ObjectId, and
      404 both for an id nobody holds and for another user's project. */
  function ProjectOr404(store: Store, rawId: string, owner: string): (r: Result<string, ProjectReply>)
    ensures ParseObjectId(rawId).None? ==> r == Failure(InvalidProjectId)
    ensures r.Success? <==> ParseObjectId(rawId).Some? && ParseObjectId(rawId).value in store
                            && store[ParseObjectId(rawId).value].userId == owner
    ensures r.Success? ==> r.value == ParseObjectId(rawId).value
    ensures ParseObjectId(rawId).Some? && r.Failure? ==> r.error == NotFound
  {
    match ParseObjectId(rawId)
    case None => Failure(InvalidProjectId)
    case Some(oid) => if oid in store && store[oid].userId == owner then Success(oid) else Failure(NotFound)
  }

  /** Another user's project is indistinguishable from one that does not exist. */
  lemma OthersProjectsLookMissing(store: Store, rawId: string, owner: string)
    requires ParseObjectId(rawId).Some? && ParseObjectId(rawId).value in store
    requires store[ParseObjectId(rawId).value].userId != owner
    ensures ProjectOr404(store, rawId, owner) == ProjectOr404(store - {ParseObjectId(rawId).value}, rawId, owner)
    ensures ProjectOr404(store, rawId, owner) == Failure(NotFound)
  {
  }

  /** `ProjectDetailView.get`. */
  function Get(store: Store, authorization: Option<string>, verify: Verifier, rawId: string): (r: ProjectReply)
    ensures CallerId(authorization, verify).None? ==> r == Unauthorized
    ensures CallerId(authorization, verify).Some? ==>
      var found := ProjectOr404(store, rawId, CallerId(authorization, verify).value);
      && (found.Failure? ==> r == found.error)
      && (found.Success? ==> r == Found(Serialize(found.value, store[found.value])))
  {
    match CallerId(authorization, verify)
    case None => Unauthorized
    case Some(owner) =>
      match ProjectOr404(store, rawId, owner)
      case Failure(e) => e
      case Success(oid) => Found(Serialize(oid, store[oid]))
  }

  /** The allowed fields present in an update request, with their values. */
  function AllowedUpdates(data: map<string, Value>): (u: map<string, Value>)
    ensures forall k :: k in u <==> k in data && k in AllowedFields
    ensures forall k :: k in u ==> u[k] == data[k]
  {
    map k | k in data && k in AllowedFields :: data[k]
  }

  /** The project after `$set`: the allowed fields from the request over the stored ones and a
      new `updated_at`; nothing is written when no allowed field was sent. */
  function Updated(p: Project, data: map<string, Value>, now: int): (q: Project)
    ensures q.userId == p.userId && q.createdAt == p.createdAt
    ensures AllowedUpdates(data) == map[] ==> q == p
    ensures AllowedUpdates(data) != map[] ==> q.updatedAt == now
    ensures forall k :: k in q.fields <==> k in p.fields || (k in data && k in AllowedFields)
    ensures forall k :: k in q.fields ==> q.fields[k] == if k in data && k in AllowedFields then data[k] else p.fields[k]
  {
    var updates := AllowedUpdates(data);
    if updates == map[] then p else p.(fields := p.fields + updates, updatedAt := now)
  }

  /** `ProjectDetailView.put`: the caller's project updated with the allowed fields of the
      request, and returned as stored; no other project changes, and on an error nothing does. */
  function Put(store: Store, authorization: Option<string>, verify: Verifier, rawId: string,
               data: map<string, Value>, now: int): (r: (ProjectReply, Store))
    ensures CallerId(authorization, verify).None? ==> r == (Unauthorized, store)
    ensures CallerId(authorization, verify).Some? ==>
      var found := ProjectOr404(store, rawId, CallerId(authorization, verify).value);
      && (found.Failure? ==> r == (found.error, store))
      && (found.Success? ==>
            var q := Updated(store[found.value], data, now);
            r.1 == store[found.value := q] && r.0 == Found(Serialize(found.value, q)))
  {
    match CallerId(authorization, verify)
    case None => (Unauthorized, store)
    case Some(owner) =>
      match ProjectOr404(store, rawId, owner)
      case Failure(e) => (e, store)
      case Success(oid) =>
        var q := Updated(store[oid], data, now);
        (Found(Serialize(oid, q)), store[oid := q])
  }

  /** `ProjectDetailView.delete`: the caller's project removed and nothing else. */
  function Delete(store: Store, authorization: Option<string>, verify: Verifier, rawId: string): (r: (ProjectReply, Store))
    ensures CallerId(authorization, verify).None? ==> r == (Unauthorized, store)
    ensures CallerId(authorization, verify).Some? ==>
      var found := ProjectOr404(store, rawId, CallerId(authorization, verify).value);
      && (found.Failure? ==> r == (found.error, store))
      && (found.Success? ==> r == (Deleted, store - {found.value}))
  {
    match CallerId(authorization, verify)
    case None => (Unauthorized, store)
    case Some(owner) =>
      match ProjectOr404(store, rawId, owner)
      case Failure(e) => (e, store)
      case Success(oid) => (Deleted, store - {oid})
  }

  // ---------------------------------------------------------------------------
  // Properties across the views
  // ---------------------------------------------------------------------------

  /** A request without a verifying token is refused with 401 by every view, and changes
      nothing. */
  lemma UnauthenticatedIsRefused(store: Store, authorization: Option<string>, verify: Verifier, rawId: string,
                                 form: ProjectForm, data: map<string, Value>, newId: string, now: int)
    requires UserFromRequest(authorization, verify).None?
    ensures Create(store, authorization, verify, form, newId, now) == (Unauthorized, store)
    ensures Get(store, authorization, verify, rawId) == Unauthorized
    ensures Put(store, authorization, verify, rawId, data, now) == (Unauthorized, store)
    ensures Delete(store, authorization, verify, rawId) == (Unauthorized, store)
    ensures Unauthorized.StatusCode() == 401
  {
  }

  /** An update never moves a project to another owner, never changes its creation time, and
      keeps the store free of fields outside the allowlist. */
  lemma PutPreservesWellFormed(store: Store, authorization: Option<string>, verify: Verifier, rawId: string,
                               data: map<string, Value>, now: int)
    requires WellFormed(store)
    ensures var after := Put(store, authorization, verify, rawId, data, now).1;
      && WellFormed(after)
      && after.Keys == store.Keys
      && (forall id :: id in store ==> after[id].userId == store[id].userId && after[id].createdAt == store[id].createdAt)
  {
  }

  /** A new project under a fresh canonical id keeps the store well formed. */
  lemma CreatePreservesWellFormed(store: Store, authorization: Option<string>, verify: Verifier, form: ProjectForm,
                                  newId: string, now: int)
    requires WellFormed(store) && IsCanonicalId(newId) && newId !in store
    ensures var after := Create(store, authorization, verify, form, newId, now).1;
      WellFormed(after) && (forall id :: id in store ==> id in after && after[id] == store[id])
  {
  }

  /** The project a caller creates is what that caller gets back when asking for its id, and
      another caller is told it does not exist. */
  lemma CreateThenGet(store: Store, authorization: Option<string>, other: Option<string>, verify: Verifier,
                      form: ProjectForm, newId: string, now: int)
    requires IsCanonicalId(newId)
    requires Create(store, authorization, verify, form, newId, now).0.Created?
    requires CallerId(other, verify).Some? && CallerId(other, verify) != CallerId(authorization, verify)
    ensures var (reply, after) := Create(store, authorization, verify, form, newId, now);
      && Get(after, authorization, verify, newId) == Found(reply.project)
      && Get(after, other, verify, newId) == NotFound
  {
    ObjectIdRoundTrip(newId);
  }

  /** Deleting a project makes it disappear for its owner while the owner's other projects stay
      as they were. */
  lemma DeleteThenGet(store: Store, authorization: Option<string>, verify: Verifier, rawId: string, otherId: string)
    requires Delete(store, authorization, verify, rawId).0 == Deleted
    requires ParseObjectId(otherId) != ParseObjectId(rawId)
    ensures var after := Delete(store, authorization, verify, rawId).1;
      && Get(after, authorization, verify, rawId) == NotFound
      && Get(after, authorization, verify, otherId) == Get(store, authorization, verify, otherId)
  {
  }
}

=== FILE: retrieval.dfy ===
/** Querying the knowledge base: the similarity search is an opaque collaborator; what is modelled
    is how its outcome is turned into the context text handed to callers, which never raises,
    and how the three per-agent query helpers route to their collections. */
module Retrieval {
  import opened Basics

  /** A retrieved chunk: its metadata and its text. */
  datatype Doc = Doc(metadata: map<string, string>, pageContent: string)

  /** What opening the store and running `similarity_search(query, k)` produced. */
  datatype SearchOutcome = Hits(docs: seq<Doc>) | Raised(message: string)

  /** The vector store: (collection name, query, k) to search outcome. */
  type Searcher = (string, string, int) -> SearchOutcome

  /** The answer when the search finds nothing. */
  const NoResults: string := "No relevant information " + "found in knowledge base."
  const ErrorPrefix: string := "Error retrieving from knowledge base: "
  const Separator: string := "\n\n---\n\n"
  const UnknownSource: string := "Unknown source"
  const SourceFileKey: string := "source_file"
  const SourceDirKey: string := "source_dir"

  function SourceOf(d: Doc): string {
    if SourceFileKey in d.metadata then d.metadata[SourceFileKey] else UnknownSource
  }

  /** The label that heads the i-th snippet (numbered from 1). */
  function SourceLabel(i: nat, source: string): string {
    "[Source " + NatToString(i) + ": " + source + "]"
  }

  function FormatHit(i: nat, d: Doc): string {
    SourceLabel(i, SourceOf(d)) + "\n" + d.pageContent
  }

  /** One formatted part per hit, numbered from 1 in rank order. */
  function FormatHits(docs: seq<Doc>): (parts: seq<string>)
    ensures |parts| == |docs|
  {
    seq(|docs|, i requires 0 <= i < |docs| => FormatHit(i + 1, docs[i]))
  }

  /** Text starting with one character never starts with a prefix that begins with another. */
  lemma FirstCharacterDecides(s: string, prefix: string)
    requires |s| > 0 && |prefix| > 0 && s[0] != prefix[0]
    ensures !StartsWith(s, prefix)
  {
  }

  /** The error answer starts with its prefix and with nothing else an answer can start with. */
  lemma ErrorAnswerShape(message: string)
    ensures StartsWith(ErrorPrefix + message, ErrorPrefix)
    ensures !StartsWith(ErrorPrefix + message, "[Source ")
    ensures ErrorPrefix + message != NoResults
  {
    var e := ErrorPrefix + message;
    assert e[..|ErrorPrefix|] == ErrorPrefix;
    assert e[0] == 'E' && NoResults[0] == 'N';
    FirstCharacterDecides(e, "[Source ");
  }

  /** The no-results sentinel starts with neither the error prefix nor a label. */
  lemma NoResultsShape()
    ensures !StartsWith(NoResults, ErrorPrefix) && !StartsWith(NoResults, "[Source ")
  {
    assert NoResults[0] == 'N' && ErrorPrefix[0] == 'E';
    FirstCharacterDecides(NoResults, ErrorPrefix);
    FirstCharacterDecides(NoResults, "[Source ");
  }

  /** A non-empty list of hits joins into text that starts with the first label. */
  lemma HitsAnswerShape(docs: seq<Doc>)
    requires |docs| > 0
    ensures StartsWith(Join(Separator, FormatHits(docs)), "[Source ")
    ensures !StartsWith(Join(Separator, FormatHits(docs)), ErrorPrefix)
    ensures Join(Separator, FormatHits(docs)) != NoResults
  {
    var parts := FormatHits(docs);
    var first := "[Source " + (NatToString(1) + ": " + SourceOf(docs[0]) + "]\n" + docs[0].pageContent);
    assert parts[0] == first;
    assert StartsWith(first, "[Source ");
    var tail := if |parts| == 1 then "" else Separator + Join(Separator, parts[1..]);
    assert Join(Separator, parts) == first + tail;
    StartsWithAppend(first, "[Source ", tail);
    assert (first + tail)[0] == '[';
    FirstCharacterDecides(first + tail, ErrorPrefix);
    assert NoResults[0] == 'N';
  }

  /** `query_knowledge_base`: never raises. A failed search yields the error sentinel, an empty
      one the no-results sentinel, otherwise the labelled snippets joined by the separator.
      The three kinds of answer are told apart by how they begin. */
  function QueryKnowledgeBase(search: Searcher, collection: string, query: string, k: int): (r: string)
    ensures search(collection, query, k).Raised? <==> StartsWith(r, ErrorPrefix)
    ensures search(collection, query, k).Raised? ==> r == ErrorPrefix + search(collection, query, k).message
    ensures search(collection, query, k) == Hits([]) <==> r == NoResults
    ensures search(collection, query, k).Hits? && |search(collection, query, k).docs| > 0 <==>
      StartsWith(r, "[Source ")
    ensures search(collection, query, k).Hits? && |search(collection, query, k).docs| > 0 ==>
      r == Join(Separator, FormatHits(search(collection, query, k).docs))
  {
    match search(collection, query, k)
    case Raised(message) =>
      ErrorAnswerShape(message);
      ErrorPrefix + message
    case Hits(docs) =>
      if |docs| == 0 then
        NoResultsShape();
        NoResults
      else
        HitsAnswerShape(docs);
        Join(Separator, FormatHits(docs))
  }

  /** Every hit appears in the answer under its own numbered label, between separators:
      the i-th hit is preceded by the separator unless it is first and followed by it unless last. */
  lemma EveryHitIsLabelled(search: Searcher, collection: string, query: string, k: int, i: nat)
    requires search(collection, query, k).Hits?
    requires i < |search(collection, query, k).docs|
    ensures
      var docs := search(collection, query, k).docs;
      var parts := FormatHits(docs);
      QueryKnowledgeBase(search, collection, query, k)
        == Join(Separator, parts[..i]) + (if i > 0 then Separator else [])
           + FormatHit(i + 1, docs[i])
           + (if i < |docs| - 1 then Separator else []) + Join(Separator, parts[i + 1..])
  {
    var docs := search(collection, query, k).docs;
    var parts := FormatHits(docs);
    assert search(collection, query, k) == Hits(docs) && |docs| > 0;
    assert QueryKnowledgeBase(search, collection, query, k) == Join(Separator, parts);
    JoinAround(Separator, parts, i);
  }

  /** Distinct hits carry distinct labels: the numbering never repeats. */
  lemma LabelsAreDistinct(i: nat, j: nat, a: string, b: string)
    requires i != j
    ensures SourceLabel(i, a) != SourceLabel(j, b)
  {
    var ni, nj := NatToString(i), NatToString(j);
    var pre := "[Source ";
    var li, lj := SourceLabel(i, a), SourceLabel(j, b);
    assert li == pre + ni + (": " + a + "]");
    assert lj == pre + nj + (": " + b + "]");
    ParseRendersBack(i);
    ParseRendersBack(j);
    assert ni != nj;
    // The digits run up to the first ':', so a label determines its number.
    if |ni| < |nj| {
      assert li[|pre| + |ni|] == ':' != nj[|ni|] == lj[|pre| + |ni|];
    } else if |nj| < |ni| {
      assert lj[|pre| + |nj|] == ':' != ni[|nj|] == li[|pre| + |nj|];
    } else {
      assert li[|pre|..|pre| + |ni|] == ni != nj == lj[|pre|..|pre| + |nj|];
    }
  }

  // ---------------------------------------------------------------------------
  // Per-agent collections
  // ---------------------------------------------------------------------------

  /** The three knowledge-base agent types. */
  datatype KnowledgeAgent = Legal | Market | Costs

  const AgentOrder: seq<KnowledgeAgent> := [Legal, Market, Costs]

  function CollectionOf(a: KnowledgeAgent): string {
    match a
    case Legal => "legal_knowledge"
    case Market => "market_knowledge"
    case Costs => "costs_knowledge"
  }

  /** The agent-type string, which is also the name of the agent's directory. */
  function AgentTypeName(a: KnowledgeAgent): string {
    match a
    case Legal => "legal"
    case Market => "market"
    case Costs => "costs"
  }

  /** Membership in the `agent_configs` table. */
  function ParseAgentType(s: string): (r: Option<KnowledgeAgent>)
    ensures r.Some? ==> AgentTypeName(r.value) == s
    ensures forall a :: AgentTypeName(a) == s ==> r == Some(a)
  {
    if s == "legal" then Some(Legal)
    else if s == "market" then Some(Market)
    else if s == "costs" then Some(Costs)
    else None
  }

  /** Each agent has its own collection. */
  lemma CollectionsDistinct(a: KnowledgeAgent, b: KnowledgeAgent)
    requires a != b
    ensures CollectionOf(a) != CollectionOf(b)
  {
    assert CollectionOf(a)[0] != CollectionOf(b)[0];
  }

  /** `query_legal_knowledge`, `query_market_knowledge`, `query_cost_knowledge`: the general query
      on the agent's own collection with the same query and k. The answer depends on nothing but
      what the store returns for that collection. */
  function QueryAgentKnowledge(search: Searcher, a: KnowledgeAgent, query: string, k: int): (r: string)
    ensures forall other: Searcher :: other(CollectionOf(a), query, k) == search(CollectionOf(a), query, k) ==>
      QueryKnowledgeBase(other, CollectionOf(a), query, k) == r
  {
    QueryKnowledgeBase(search, CollectionOf(a), query, k)
  }

  function QueryLegalKnowledge(search: Searcher, query: string, k: int): (r: string)
    ensures r == QueryKnowledgeBase(search, "legal_knowledge", query, k)
  {
    QueryAgentKnowledge(search, Legal, query, k)
  }

  function QueryMarketKnowledge(search: Searcher, query: string, k: int): (r: string)
    ensures r == QueryKnowledgeBase(search, "market_knowledge", query, k)
  {
    QueryAgentKnowledge(search, Market, query, k)
  }

  function QueryCostKnowledge(search: Searcher, query: string, k: int): (r: string)
    ensures r == QueryKnowledgeBase(search, "costs_knowledge", query, k)
  {
    QueryAgentKnowledge(search, Costs, query, k)
  }
}

=== FILE: server.dfy ===
/** The FastAPI `/analyze` endpoint of the stand-alone server: the same graph, run with the client
    the module builds once at start-up, and its answer mapped to a response or an HTTP 500. */
module Server {
  import opened Basics
  import opened Pipeline

  /** `AnalysisRequest`. */
  datatype AnalysisRequest = AnalysisRequest(startupIdea: string, targetMarket: Option<string>, projectId: Option<string>)

  /** `AnalysisResponse` as `analyze_startup` builds it: its `error` field is never set. */
  datatype AnalysisResponse = AnalysisResponse(success: bool, projectId: Option<string>, analysis: AnalysisResult)

  /** A response, or the `HTTPException` raised instead. */
  datatype Reply = Answered(response: AnalysisResponse) | HttpError(status: nat, detail: string)

  /** `analyze_startup`: the initial state from the request, the graph, then the seven values;
      any exception becomes a 500 carrying its message, with no partial analysis. */
  function AnalyzeStartup(generate: Generator, request: AnalysisRequest): (r: Reply)
    ensures var run := Run(Success(generate), StageOrder, InitialState(request.startupIdea, request.targetMarket));
      && (r.Answered? <==> run.Success?)
      && (r.Answered? ==> r.response == AnalysisResponse(true, request.projectId, ToResult(run.value)))
      && (r.HttpError? ==> r.status == 500 && r.detail == run.error)
  {
    match Run(Success(generate), StageOrder, InitialState(request.startupIdea, request.targetMarket))
    case Success(final) => Answered(AnalysisResponse(true, request.projectId, ToResult(final)))
    case Failure(e) => HttpError(500, e)
  }

  /** The endpoint answers with the data flow of the nine nodes: the response reports the final
      refinement as the strategist critique and echoes the project id, and the first failing node
      decides the error. */
  lemma AnalyzeStartupIsDataFlow(generate: Generator, request: AnalysisRequest)
    ensures AnalyzeStartup(generate, request) ==
      match DataFlow(generate, request.startupIdea, request.targetMarket)
      case Success(final) => Answered(AnalysisResponse(true, request.projectId, ToResult(final)))
      case Failure(e) => HttpError(500, e)
  {
    RunIsDataFlow(generate, request.startupIdea, request.targetMarket);
  }

  /** The project id is echoed unchanged and never influences the analysis. */
  lemma ProjectIdOnlyEchoed(generate: Generator, request: AnalysisRequest, otherId: Option<string>)
    ensures var other := AnalyzeStartup(generate, request.(projectId := otherId));
      && (other.Answered? <==> AnalyzeStartup(generate, request).Answered?)
      && (other.Answered? ==> other.response == AnalyzeStartup(generate, request).response.(projectId := otherId))
      && (other.HttpError? ==> other == AnalyzeStartup(generate, request))
  {
  }
}

=== FILE: workflow.dfy ===
/** `run_analysis` and `get_llm`: the analysis run as the Django backend invokes it. Every node
    asks `get_llm` for a client, so a missing key makes the first node raise and ends the run. */
module Workflow {
  import opened Basics
  import opened Pipeline

  /** Where `get_llm` looks for the OpenAI key: the Django setting, then the environment; an unset
      value (None) and an empty one both read as "". */
  datatype KeySource = KeySource(setting: string, environ: string)

  /** The chat client built for a given key. */
  type ModelFor = string -> Generator

  const NoKeyMessage: string := "OPENAI_API_KEY is not configured"

  /** `settings.OPENAI_API_KEY or os.getenv('OPENAI_API_KEY')`. */
  function ApiKey(src: KeySource): (key: string)
    ensures key == "" <==> src.setting == "" && src.environ == ""
    ensures src.setting != "" ==> key == src.setting
  {
    if src.setting != "" then src.setting else src.environ
  }

  /** `get_llm`: a client for the key, or the `ValueError` raised when neither place holds one. */
  function GetLlm(src: KeySource, modelFor: ModelFor): (r: Result<Generator, string>)
    ensures r.Failure? <==> src.setting == "" && src.environ == ""
    ensures r.Failure? ==> r.error == NoKeyMessage
    ensures r.Success? ==> r.value == modelFor(ApiKey(src))
  {
    var key := ApiKey(src);
    if key == "" then Failure(NoKeyMessage) else Success(modelFor(key))
  }

  /** `run_analysis`: the graph over the initial state, then the seven keys of the response; an
      exception raised by any node propagates to the caller. */
  function RunAnalysis(src: KeySource, modelFor: ModelFor, idea: string, targetMarket: Option<string>)
    : (r: Result<AnalysisResult, string>)
    ensures var run := Run(GetLlm(src, modelFor), StageOrder, InitialState(idea, targetMarket));
      && (r.Success? <==> run.Success?)
      && (r.Failure? ==> r.error == run.error)
      && (r.Success? ==> r.value == ToResult(run.value))
  {
    var final :- Run(GetLlm(src, modelFor), StageOrder, InitialState(idea, targetMarket));
    Success(ToResult(final))
  }

  /** Without a key the first node raises, so the run fails with the key error and no node's
      output is produced. */
  lemma NoKeyNoAnalysis(src: KeySource, modelFor: ModelFor, idea: string, targetMarket: Option<string>)
    requires src.setting == "" && src.environ == ""
    ensures RunAnalysis(src, modelFor, idea, targetMarket) == Failure(NoKeyMessage)
  {
    NoModelAbortsRun(NoKeyMessage, StageOrder, InitialState(idea, targetMarket));
  }

  /** With a key, `run_analysis` computes the data flow of the nine nodes with the client for
      that key: the seven values on success, the first node error otherwise. */
  lemma AnalysisIsDataFlow(src: KeySource, modelFor: ModelFor, idea: string, targetMarket: Option<string>)
    requires src.setting != "" || src.environ != ""
    ensures RunAnalysis(src, modelFor, idea, targetMarket)
         == (var final :- DataFlow(modelFor(ApiKey(src)), idea, targetMarket); Success(ToResult(final)))
  {
    RunIsDataFlow(modelFor(ApiKey(src)), idea, targetMarket);
  }
}
